=== FILE: README.md ===
# Expert datasets, curriculum and replay buffers of basalt-drex, in Dafny

This project models the data side of the basalt-drex training loop. That is
the bookkeeping that decides which recorded steps and which fixed-length
sequences of steps a training batch can draw, and where a recomputed
recurrent hidden state is written back.

- **Step index** (`StepIndex`): the flat list of `(trajectory_idx, step_idx)`
  pairs for every recorded step. `StepIndex.Enumerate` is its reference
  definition. The expert loader `_load_data` is proved to build it, including
  the debug mode that stops after two trajectories. So are the replay
  buffers' `increment_step` and `new_trajectory`.
- **Sequence index** (`SequenceIndex`): the pairs at which a window of
  `sequence_length` steps may end. The expert dataset and the sequence replay
  buffer use different boundary rules. Both are kept, and the difference is
  proved to be exactly the pairs at step `sequence_length + 1`.
- **Curriculum** (`Curriculum`, `Datasets`): `update_curriculum(f)` keeps a
  sequence when one of three things holds:
  - it lies in the first `f` of its trajectory;
  - it lies before `initial_curriculum_size`;
  - a randomly phased sparsity test admits it.

  The kept sequences are listed in master order. While emphasis is on, extra
  passes over the newly unlocked band follow. `cross_lookup` maps each
  filtered position back to its master position.
- **Write-back**: `__getitem__` returns the master index next to the window,
  and `update_hidden` writes through the master index.
- **Replay buffers** (`Replay`): append-only step and sequence indices, and
  sampling without replacement of `min(batch_size, len)` positions.
- **Mixed buffers** (`Mixed`):
  - each batch is split as `floor(batch_size * expert_sample_fraction)` expert
    samples plus the rest from replay;
  - the expert loader is retried exactly once, after an optional curriculum
    refresh;
  - the periodic curriculum refresh reports an inclusion ratio.

Random draws are parameters:
- the curriculum phase `seed` (any value below `extracurricular_sparsity`; with a sparsity below 1 the draw raises and the seed is unused);
- the order in which `random.sample` picks positions (any permutation of the
  pool).

The trajectory class (core/trajectories.py) is not part of this model. A step
is a record of type `R` with an optional hidden state of type `H`, and
`len(trajectory)` is its number of steps. Python exceptions are `Err` values
of `Outcomes.Failure`; an `Err` carries no state, so changes the source makes before
raising are dropped (see "## Left out").

## Model

| member | source | states |
|---|---|---|
| StepIndex.LoadData | helpers/datasets.py:34-57 | The step index lists `(t, s)` for every step of every trajectory directory in listing order, skipping non-directories. Its length is the total step count. In debug mode it holds exactly the first two trajectories of the listing. |
| StepIndex.DebugStop | helpers/datasets.py:54-56 | Once two trajectories are loaded they are the first two of the whole listing, so stopping early loses nothing before them. |
| StepIndex.EnumerateLength | helpers/datasets.py:59-60 | The dataset's length, the length of the step index, is the total number of steps. |
| StepIndex.EnumerateNamesSteps | core/datasets.py:25-28 | Every pair of the step index names an existing trajectory and a step inside it, so `__getitem__` never indexes out of range. |
| StepIndex.EnumerateGrowLast | core/datasets.py:139-141 | Recording one more step in the last trajectory appends exactly the pair naming that step to the index. |
| StepIndex.EnumerateNewTrajectory | core/datasets.py:129-130 | Starting an empty trajectory leaves the index unchanged. |
| SequenceIndex.IdentifySequences | core/datasets.py:54-59 | The sequence index is the order-preserving filter of the step index by `step > sequence_length + 1`: a pair is in it exactly when it is in the step index and passes the rule. |
| SequenceIndex.DatasetWindowsFit | core/datasets.py:57-68 | Every pair the dataset rule keeps names a full window of `sequence_length` steps inside its trajectory. |
| SequenceIndex.ReplayKeepsOneMoreStep | core/datasets.py:166-170 | The replay rule keeps everything the dataset rule keeps. Exactly the pairs at step `sequence_length + 1` are kept by the replay rule and not by the dataset rule. |
| Lookups.Positions | core/datasets.py:78-84 | The master positions `enumerate` pairs with a filtering comprehension are strictly increasing and in range. They are exactly the positions whose pair passes. Selecting them gives the filtered list. |
| Lookups.FilterMembership | core/datasets.py:55-58 | A pair survives an order-preserving filter exactly when it occurs in the list and passes. |
| Lookups.FilterSnoc | core/datasets.py:168-170 | Filtering a list grown by one pair gives the old filter plus that pair when it passes. This is the step an append-only index takes. |
| Curriculum.PositionsEmpty | core/datasets.py:78-84 | The comprehension is empty exactly when no pair passes. Only then does unpacking `zip(*[])` fail. |
| Curriculum.Assemble | core/datasets.py:100-104 | Filtered pairs and master indices extended together stay aligned. Every filtered position resolves through `cross_lookup` to the master position holding the same pair. |
| Curriculum.ExtraMasters | core/datasets.py:88-102 | While emphasis is active, the emphasis loop adds `emphasis_relative_sample_frequency - 1` full passes over the band `len*(f-ef) < s <= len*f`; otherwise it adds nothing. Every emphasised master is also admitted by the base rule. |
| Curriculum.Snapshot | core/datasets.py:85-104 | A computed curriculum lists the base-admitted masters in master order, then the emphasis passes. `current_curriculum_length` counts the base part, and the cross map is a round trip. |
| Curriculum.UpdateCurriculum | core/datasets.py:76-107 | A sparsity below 1 fails first (`EmptyPhaseRange`: the phase draw has an empty range). Otherwise it fails exactly when no sequence passes the three-way rule, or when emphasis needs a pass over an empty band; `EmptyPool` means the first. Otherwise the base part is the filter by the rule, the tail is the emphasis passes, and `cross_lookup` round-trips. |
| Curriculum.BaseMembership | core/datasets.py:79-87 | A master sequence is among the first `current_curriculum_length` cross entries if and only if the three-way rule admits it. |
| Curriculum.BaseMonotone | core/datasets.py:81-83 | With the phase fixed, raising the curriculum fraction never removes a sequence from the base set. |
| Curriculum.FullFractionAdmitsAll | core/datasets.py:81-83 | At fraction 1 or more, every sequence whose step lies inside its trajectory is admitted, whatever the phase. |
| Datasets.Build | core/datasets.py:31-52 | The built dataset holds the filtered sequence index. It has a curriculum snapshot exactly under curriculum training. Without curriculum training it cannot fail, whatever the sparsity, and `lookup` is the sequence index. Under curriculum training it fails exactly when the phase range is empty, when no sequence passes the rule at fraction 0, or when emphasis at fraction 0 needs a pass over an empty band. The first snapshot is exactly what the curriculum computation returns at fraction 0. It is the fraction-0 filter of the sequence index with nothing after the base part, so `len(dataset)` is the number of sequences that filter keeps. |
| Datasets.UpdateCurriculum | core/datasets.py:76-107 | Refreshing replaces only the snapshot and switches `lookup` to the filtered list. Its base part is the filter of the sequence index, and it fails exactly when the curriculum computation does. |
| Datasets.GetItem | core/datasets.py:64-69 | The window has `sequence_length` steps ending at the looked-up step. When the dataset was built for curriculum training, or has no snapshot, the master index names the same pair in the sequence index. |
| Datasets.GetItemMisroutesAfterRefresh | core/datasets.py:64-66 | A dataset built without curriculum training whose curriculum is refreshed returns a filtered position as master index. That position names a different sequence. |
| Datasets.MisrouteExampleSequences | core/datasets.py:54-59 | For the loaded index of trajectories of 5 and 8 steps with `sequence_length` 2, `_identify_sequences` keeps exactly (0, 4), (1, 4), (1, 5), (1, 6) and (1, 7). This is the input of the finding below. |
| Datasets.GetItemCorrected | core/datasets.py:64-69 | Taking the master index from `cross_lookup` whenever `lookup` is a snapshot makes the master index name the looked-up pair in every state. |
| Datasets.UpdateHidden | core/datasets.py:71-74 | Each step holds the hidden state of the last write aimed at it, with `zip` stopping at the shorter list. Every other step, every index and the snapshot are unchanged. |
| Trajectories.ApplyWrites | core/datasets.py:72-74 | Writes applied in order leave every step with the value of the last write aimed at it. Lengths and `done` flags are kept. |
| Replay.NewReplayBuffer | core/datasets.py:111-113 | A new buffer holds one empty trajectory and an empty, complete step index. |
| Replay.NewSequenceReplayBuffer | core/datasets.py:152-155 | A new sequence buffer stores the given `sequence_length` and starts with an empty sequence index over a new replay buffer's complete step index. The empty index is the replay rule's filter of that step index. |
| Replay.NewTrajectory | core/datasets.py:129-130 | A new trajectory is empty and the existing ones are kept. The step index is unchanged and stays complete. |
| Replay.IncrementStep | core/datasets.py:139-141 | `increment_step` appends exactly the pair `(len(trajectories) - 1, len(actions) - 1)`, which is step -1 on a trajectory without actions, and leaves every earlier pair in place. |
| Replay.RecordStep | core/datasets.py:132-136 | Pushing a step adds it to the end of the current trajectory and sets `done`. Earlier trajectories are untouched. |
| Replay.IncrementAfterRecordKeepsComplete | core/datasets.py:132-141 | Pushing a step and then incrementing keeps the step index equal to the reference flat index of the trajectories. |
| Replay.AppendStep | core/datasets.py:132-137 | `append_step` pushes the step, with no hidden state, onto the current trajectory and keeps that trajectory's earlier steps and their hidden states. It extends the index by one pair naming the step just pushed. Earlier pairs and trajectories are kept, and the index stays complete. |
| Replay.SequenceIncrementStep | core/datasets.py:166-170 | The sequence index grows by the new pair exactly when the current trajectory has more than `sequence_length + 1` steps. It stays the replay rule's filter of the step index. |
| Replay.SequenceAppendStep | core/datasets.py:132-137 | On a sequence buffer, `append_step` keeps the sequence index append-only and consistent with the step index. |
| Replay.SequenceNewTrajectory | core/datasets.py:129-130 | Starting a trajectory keeps the sequence index and its consistency. |
| Replay.IncrementalMatchesRebuild | core/datasets.py:166-170 | Start from a buffer whose step index is complete and whose sequence index is consistent; a new buffer is one. After any run of appends and resets, the step index is still the reference flat index and the sequence index still equals a rebuild from it. |
| Replay.DrawIndices | helpers/datasets.py:104-106 | `random.sample(range(len), min(batch_size, len))` returns `min(batch_size, len)` distinct positions, all in range. |
| Replay.SmallPoolDrawsAll | core/datasets.py:143-146 | When the pool is no larger than the batch, the draw covers every position exactly once. |
| Replay.CompleteStepsExist | core/datasets.py:118-120 | Every pair of a complete step index names a recorded step. |
| Replay.Sample | core/datasets.py:143-148 | A step sample has `min(batch_size, len)` items with distinct indices. Each carries the step its index names. |
| Replay.ConsistentWindowsExist | core/datasets.py:160-164 | Every pair of a consistent sequence index names a full window, so `get_sequence` stays inside its trajectory. |
| Replay.SampleSequences | core/datasets.py:172-178 | A sequence sample has `min(batch_size, len)` items with distinct indices. Each carries the window its index names. |
| Replay.UpdateHidden | core/datasets.py:180-183 | Writes go through the replay sequence index. Each step holds its last write, and both indices and all lengths are unchanged. |
| Mixed.BatchSplit | core/datasets.py:195-198 | The expert share is the floor of `batch_size * fraction`, and the two shares always sum to the batch. Both are non-negative when the fraction lies in [0, 1]. |
| Mixed.SplitExamples | helpers/datasets.py:119-125 | The legacy default of 64 and 0.5 splits 32/32, and 64 with 0.3 splits 19/45. |
| Mixed.Restart | core/datasets.py:208-213 | A fresh loader with `drop_last` holds the largest number of full batches the current lookup can fill. |
| Mixed.NewMixed | core/datasets.py:193-213 | Construction fails exactly when the expert lookup is empty (the shuffled loader's sampler refuses it, checked first) or the expert share is below 1 (the batch size is refused). Otherwise the buffer stores `curriculum_training` and `curriculum_refresh_steps` as given, the replay part is empty or taken over from `initial_replay_buffer`, and the loader is fresh. |
| Mixed.Reinitialise | core/datasets.py:208-226 | After a restart, `next` succeeds exactly when the lookup fills one batch. An empty lookup is refused when the loader is built; any other shortfall lets `StopIteration` escape. |
| Mixed.SampleExpert | core/datasets.py:218-226 | A loader with batches left yields one. A spent loader causes at most one refresh (with the stored fraction, or `MissingFraction`) and one retry. A second spent loader is an error, and the loader never promises more sequences than the lookup holds. Only the expert dataset and the loader change; the other settings are kept. |
| Mixed.LegacySampleExpert | helpers/datasets.py:140-148 | The legacy loader yields a batch or, when spent, restarts once. It fails only when a fresh loader holds no full batch either; an empty dataset is refused when the loader is rebuilt. |
| Mixed.SampleExpertWithoutCurriculumIsLegacy | core/datasets.py:218-226 | Without curriculum training, the core `sample_expert` never touches the expert dataset and agrees with the legacy one on loader count and failure. |
| Mixed.CurriculumLengthBound | core/datasets.py:233-234 | A computed curriculum has a base length in `1 .. len(sequence_lookup)`, so the division never divides by zero. |
| Mixed.Refresh | core/datasets.py:237-238 | A refresh replaces the expert snapshot and restarts the loader, or passes the curriculum's failure on. |
| Mixed.Inclusion | core/datasets.py:239-241 | The reported inclusion ratio lies in (0, 1] and is the base length divided by the sequence count. |
| Mixed.UpdateCurriculum | core/datasets.py:231-241 | Fails with `MissingCurriculum` before any curriculum exists. It stores the fraction. It refreshes and restarts exactly when the step is a multiple of the interval and the fraction is below the final one. It reports the ratio of the resulting curriculum. Apart from the stored fraction, only the expert dataset and the loader change. |
| Mixed.Sample | core/datasets.py:228-229 | The expert part is drawn first and any failure of it is returned. The replay part has `min(replay_batch_size, len)` items with distinct, in-range indices, each carrying the window its index names. A negative replay share is an error, and so is an empty replay draw, which `default_collate` cannot collate. Otherwise, when the expert part succeeds, the call succeeds. |
| Mixed.SampleIgnoresBatchSize | core/datasets.py:228-229 | The `batch_size` argument of `sample` has no effect on the result. |
| Mixed.UpdateHidden | core/datasets.py:251-253 | Replay writes reach only the replay trajectories and expert writes only the expert trajectories, each through its own sequence index. No index, loader or split changes. |

The legacy `ReplayBuffer` of helpers/datasets.py (lines 71-108) has the same
`new_trajectory`, `increment_step` and index draw in `sample` as the core one.
The `Replay` members above model both. One difference is not modelled: the
legacy `__getitem__` (helpers/datasets.py:82-88) returns the sample without its
index, so legacy batch items carry no `index` field, while `Replay.Sample`
pairs each step with its index as the core `__getitem__` does.

## Left out

- Batch contents: the shuffled `DataLoader` is modelled by its count of remaining full batches. Which sequences a batch holds, worker processes and `default_collate` are not modelled.
- Step payloads: observations, actions, rewards, `MirrorAugment`, `get_item(..., n_observation_frames)` and the minerl/MineRL dataset builders are abstracted into the record type `R`. Trajectory loading is abstracted into a listing of step counts.
- The trajectory class (core/trajectories.py) is not part of this model. `get_sequence` is taken to return the `sequence_length` steps ending at the given step, and `update_hidden` on a trajectory to set that step's hidden state.
- Floating point: fractions are exact reals. `len * f` and `floor(batch * fraction)` may differ from the float results at exact boundaries.
- Aliasing: with `initial_replay_buffer`, the Python lists are shared, so later appends show up in both buffers. The model copies the values at construction.
- `print` calls, and the read of the next state at core/datasets.py:184, which has no effect.
- The flat-step `MixedReplayBuffer` of core/datasets.py used on its own: its split, `sample_expert` and `update_curriculum` are the ones modelled. Its replay part samples steps (`Replay.Sample`) instead of sequences; as in `Mixed.Sample`, an empty draw makes `default_collate` raise.
- `Replay.Sample`, `Replay.SampleSequences`: the random choice is an arbitrary permutation of the pool, and the draw is its prefix. This captures what `random.sample` can return, not its distribution. They return the draw before collation, so they do not report the `IndexError` that `default_collate([])` raises on an empty draw; `Mixed.Sample` does.
- Partial updates before an exception: an `Err` leaves the caller with the state from before the call, while the Python objects keep what they changed before raising. `update_curriculum` stores `curriculum_fraction` (core/datasets.py:232) before a missing curriculum or a zero interval raises (:233, :235). `sample` runs `sample_expert`, which may refresh the curriculum and rebuild the loader, before `sample_replay` raises (:229). A refresh and a new loader (:223-224) stay when the retried `next` raises (:225). `update_curriculum` on the dataset replaces `filtered_lookup` and `current_curriculum_length` (:85-87) before an empty emphasis band raises (:91-99), leaving `cross_lookup` and `lookup` old. No caller in the modelled files catches these exceptions, so the half-updated states are not modelled.
- `Mixed.SampleExpert`: the curriculum-refresh phase and the loader's shuffle are parameters or not modelled. An `update_curriculum` call on the expert dataset from outside the mixed buffer is not modelled.

## Findings

| source | as written | input that shows it | evidently intended | confidence | as-written member | corrected member |
|---|---|---|---|---|---|---|
| core/datasets.py:64-66 | `__getitem__` uses `cross_lookup[idx]` only when `curriculum_training` is set. `update_curriculum` always switches `lookup` to the filtered list. | A dataset built without curriculum training from trajectories of 5 and 8 steps with `sequence_length` 2, `initial_curriculum_size` 0, `extracurricular_sparsity` 1000 and `emphasize_new_samples` off. Its sequence index is (0, 4), (1, 4), (1, 5), (1, 6), (1, 7). After `update_curriculum(0.5)` with phase 0, `lookup` is `[(1, 4)]`, and `__getitem__(0)` returns master index 0, which names (0, 4). | The master index names the looked-up sequence whenever `lookup` is a filtered snapshot. | low: no caller in this repository refreshes a dataset built without curriculum training; not executed | Datasets.GetItem, Datasets.GetItemMisroutesAfterRefresh, Datasets.MisrouteExampleSequences | Datasets.GetItemCorrected |

=== FILE: curriculum.dfy ===
/** The curriculum filter of `TrajectorySequenceDataset.update_curriculum`.

Given the curriculum fraction `f`, a sequence `(t, s)` of the master sequence
index is eligible when it lies in the first `f` of its trajectory, when it lies
before `initial_curriculum_size`, or when `(s + seed) % extracurricular_sparsity
== 0` for a phase `seed` drawn once per call. Eligible sequences are listed in
master order, followed, while emphasis is on, by extra passes over the band of
sequences the last `emphasized_fraction` of progress unlocked. `cross` maps each
filtered position back to its master position.

Fractions are exact `real`s; the Python code compares floats.
 */
module Curriculum {
  import opened Outcomes
  import opened Lookups

  datatype Config = Config(
    initialCurriculumSize: int,
    extracurricularSparsity: int,
    emphasizeNewSamples: bool,
    emphasizedFraction: real,
    emphasisRelativeSampleFrequency: int)

  /** `random.randint(0, sparsity - 1)` has a non-empty range, so the phase
      rule and its `%` are reached. */
  predicate ValidConfig(c: Config) {
    c.extracurricularSparsity >= 1
  }

  /** `seed` is a value the phase draw `random.randint(0, sparsity - 1)` can
      return; with a sparsity below 1 the draw raises and no phase is used. */
  predicate DrawnPhase(c: Config, seed: nat) {
    c.extracurricularSparsity < 1 || seed < c.extracurricularSparsity
  }

  /** `final_curriculum_fraction`: emphasis keeps running until the band has
      moved past the end of every trajectory. */
  function FinalFraction(c: Config): real {
    if c.emphasizeNewSamples then 1.0 + c.emphasizedFraction else 1.0
  }

  /** The base inclusion rule for step `e.step` of a trajectory of `len` steps.
      Python's `%` floors and Dafny's is Euclidean; for the positive sparsity
      both give the same remainder. */
  predicate BaseIncluded(c: Config, len: nat, f: real, seed: nat, e: Entry)
    requires ValidConfig(c)
  {
    || e.step as real <= len as real * f
    || e.step < c.initialCurriculumSize
    || (e.step + seed) % c.extracurricularSparsity == 0
  }

  /** The newly unlocked band `len * (f - ef) < s <= len * f`. */
  predicate InBand(c: Config, len: nat, f: real, e: Entry) {
    && e.step as real <= len as real * f
    && e.step as real > len as real * (f - c.emphasizedFraction)
  }

  predicate EmphasisActive(c: Config, f: real) {
    c.emphasizeNewSamples && f > c.emphasizedFraction && f < FinalFraction(c)
  }

  /** `len(range(emphasis_relative_sample_frequency - 1))`. */
  function Copies(c: Config): nat {
    if c.emphasisRelativeSampleFrequency >= 1 then c.emphasisRelativeSampleFrequency - 1 else 0
  }

  /** A pair the base rule admits, given the lengths of all trajectories. */
  predicate Eligible(c: Config, lengths: seq<nat>, f: real, seed: nat, e: Entry)
    requires ValidConfig(c)
  {
    e.trajectory < |lengths| && BaseIncluded(c, lengths[e.trajectory], f, seed, e)
  }

  function BaseKeep(c: Config, lengths: seq<nat>, f: real, seed: nat): Entry -> bool
    requires ValidConfig(c)
  {
    (e: Entry) => Eligible(c, lengths, f, seed, e)
  }

  function BandKeep(c: Config, lengths: seq<nat>, f: real): Entry -> bool {
    (e: Entry) => e.trajectory < |lengths| && InBand(c, lengths[e.trajectory], f, e)
  }

  /** `filtered_lookup`, `cross_lookup` (a dict whose keys are exactly the
      positions `0 .. len(filtered_lookup)-1`, hence a sequence here) and
      `current_curriculum_length`. */
  datatype Selection = Selection(filtered: seq<Entry>, cross: seq<nat>, length: nat)

  /** Each filtered position resolves, through `cross`, to the master position
      holding the same pair. */
  predicate RoundTrip(lookup: seq<Entry>, s: Selection) {
    && |s.cross| == |s.filtered|
    && forall i :: 0 <= i < |s.cross| ==> s.cross[i] < |lookup| && lookup[s.cross[i]] == s.filtered[i]
  }

  /** What a successful `update_curriculum` leaves behind. */
  predicate WellFormed(lookup: seq<Entry>, s: Selection) {
    && RoundTrip(lookup, s)
    && 0 < s.length <= |s.filtered|
    && StrictlyIncreasing(s.cross[..s.length])
  }

  lemma {:induction false} PositionsEmpty(lookup: seq<Entry>, keep: Entry -> bool)
    ensures |Positions(lookup, keep)| == 0 <==> NoneKept(lookup, keep)
  {
    var ps := Positions(lookup, keep);
    if |ps| > 0 {
      assert keep(lookup[ps[0]]);
    }
  }

  /** Lists the masters `base + extra` and the pairs they resolve to, with the
      first `|base|` of them counted as the curriculum length. Every master
      satisfies `keep` when every listed one does. */
  function Assemble(lookup: seq<Entry>, base: seq<nat>, extra: seq<nat>, keep: Entry -> bool): (s: Selection)
    requires 0 < |base|
    requires StrictlyIncreasing(base) && Below(base, |lookup|) && Below(extra, |lookup|)
    requires forall i :: 0 <= i < |base| ==> keep(lookup[base[i]])
    requires forall i :: 0 <= i < |extra| ==> keep(lookup[extra[i]])
    ensures WellFormed(lookup, s)
    ensures s.length == |base| && s.cross[..s.length] == base && s.cross[s.length..] == extra
    ensures s.filtered[..s.length] == Select(lookup, base)
    ensures s.filtered[s.length..] == Select(lookup, extra)
    ensures forall i :: 0 <= i < |s.cross| ==> keep(lookup[s.cross[i]])
  {
    SelectAppend(lookup, base, extra);
    var masters := base + extra;
    assert masters[..|base|] == base;
    assert masters[|base|..] == extra;
    assert forall i :: |base| <= i < |masters| ==> masters[i] == extra[i - |base|];
    Selection(Select(lookup, masters), masters, |base|)
  }

  /** The master positions the emphasis loop appends: `Copies(c)` passes over
      the band while emphasis is active, nothing otherwise. Every one of them is
      also admitted by the base rule. */
  function ExtraMasters(c: Config, lookup: seq<Entry>, lengths: seq<nat>, f: real, seed: nat): (extra: seq<nat>)
    requires ValidConfig(c)
    ensures Below(extra, |lookup|)
    ensures Select(lookup, extra)
            == if EmphasisActive(c, f) then Repeat(Filter(lookup, BandKeep(c, lengths, f)), Copies(c)) else []
    ensures forall i :: 0 <= i < |extra| ==> Eligible(c, lengths, f, seed, lookup[extra[i]])
  {
    var band := Positions(lookup, BandKeep(c, lengths, f));
    RepeatMembers(band, Copies(c));
    SelectRepeat(lookup, band, Copies(c));
    if EmphasisActive(c, f) then
      var extra := Repeat(band, Copies(c));
      assert forall i :: 0 <= i < |extra| ==> extra[i] in band;
      extra
    else
      []
  }

  /** The snapshot a successful `update_curriculum` leaves: the base masters in
      master order, then the emphasis passes. */
  function Snapshot(c: Config, lookup: seq<Entry>, lengths: seq<nat>, f: real, seed: nat): (s: Selection)
    requires ValidConfig(c)
    requires |Positions(lookup, BaseKeep(c, lengths, f, seed))| > 0
    ensures WellFormed(lookup, s)
    ensures s.filtered[..s.length] == Filter(lookup, BaseKeep(c, lengths, f, seed))
    ensures s.cross[..s.length] == Positions(lookup, BaseKeep(c, lengths, f, seed))
    ensures s.filtered[s.length..]
            == if EmphasisActive(c, f) then Repeat(Filter(lookup, BandKeep(c, lengths, f)), Copies(c)) else []
    ensures forall i :: 0 <= i < |s.cross| ==> Eligible(c, lengths, f, seed, lookup[s.cross[i]])
  {
    var base := Positions(lookup, BaseKeep(c, lengths, f, seed));
    var extra := ExtraMasters(c, lookup, lengths, f, seed);
    Assemble(lookup, base, extra, BaseKeep(c, lengths, f, seed))
  }

  /** `update_curriculum(f)` with the phase `seed` drawn by `random.randint`,
      which raises first when the sparsity leaves it an empty range. */
  function UpdateCurriculum(c: Config, lookup: seq<Entry>, lengths: seq<nat>, f: real, seed: nat): (r: Result<Selection>)
    requires DrawnPhase(c, seed)
    requires forall i :: 0 <= i < |lookup| ==> lookup[i].trajectory < |lengths|
    ensures !ValidConfig(c) ==> r == Err(EmptyPhaseRange)
    ensures ValidConfig(c) ==>
              (r.Err? <==> NoneKept(lookup, BaseKeep(c, lengths, f, seed))
                           || (EmphasisActive(c, f) && Copies(c) > 0 && NoneKept(lookup, BandKeep(c, lengths, f))))
    ensures ValidConfig(c) && r.Err? ==> (r.error == EmptyPool <==> NoneKept(lookup, BaseKeep(c, lengths, f, seed)))
    ensures r.Ok? ==> ValidConfig(c)
    ensures r.Ok? ==> WellFormed(lookup, r.value)
    ensures r.Ok? ==> r.value.filtered[..r.value.length] == Filter(lookup, BaseKeep(c, lengths, f, seed))
    ensures r.Ok? ==> r.value.cross[..r.value.length] == Positions(lookup, BaseKeep(c, lengths, f, seed))
    ensures r.Ok? ==>
              r.value.filtered[r.value.length..]
              == if EmphasisActive(c, f) then Repeat(Filter(lookup, BandKeep(c, lengths, f)), Copies(c)) else []
    ensures r.Ok? ==> forall i :: 0 <= i < |r.value.cross| ==> Eligible(c, lengths, f, seed, lookup[r.value.cross[i]])
  {
    if !ValidConfig(c) then
      Err(EmptyPhaseRange)
    else
      PositionsEmpty(lookup, BaseKeep(c, lengths, f, seed));
      PositionsEmpty(lookup, BandKeep(c, lengths, f));
      if |Positions(lookup, BaseKeep(c, lengths, f, seed))| == 0 then
        Err(EmptyPool)
      else if EmphasisActive(c, f) && Copies(c) > 0 && |Positions(lookup, BandKeep(c, lengths, f))| == 0 then
        Err(EmptyEmphasisBand)
      else
        Ok(Snapshot(c, lookup, lengths, f, seed))
  }

  /** The base part of the filtered lookup is exactly the set of masters the
      base rule admits: `current_curriculum_length` counts them and nothing else. */
  lemma BaseMembership(c: Config, lookup: seq<Entry>, lengths: seq<nat>, f: real, seed: nat)
    requires DrawnPhase(c, seed)
    requires forall i :: 0 <= i < |lookup| ==> lookup[i].trajectory < |lengths|
    requires UpdateCurriculum(c, lookup, lengths, f, seed).Ok?
    ensures var s := UpdateCurriculum(c, lookup, lengths, f, seed).value;
            forall m :: 0 <= m < |lookup| ==>
              (BaseIncluded(c, lengths[lookup[m].trajectory], f, seed, lookup[m]) <==> m in s.cross[..s.length])
  {
  }

  /** The masters the base rule admits at fraction `f`. */
  function BaseMasters(c: Config, lookup: seq<Entry>, lengths: seq<nat>, f: real, seed: nat): set<nat>
    requires ValidConfig(c)
  {
    set m | 0 <= m < |lookup| && Eligible(c, lengths, f, seed, lookup[m])
  }

  /** With the phase held fixed, raising the fraction never removes a
      sequence from the base set. */
  lemma BaseMonotone(c: Config, lookup: seq<Entry>, lengths: seq<nat>, f1: real, f2: real, seed: nat)
    requires ValidConfig(c)
    requires f1 <= f2
    ensures BaseMasters(c, lookup, lengths, f1, seed) <= BaseMasters(c, lookup, lengths, f2, seed)
  {
  }

  /** At fraction 1 or more every sequence whose step lies inside its
      trajectory is eligible, whatever the phase. */
  lemma FullFractionAdmitsAll(c: Config, lookup: seq<Entry>, lengths: seq<nat>, f: real, seed: nat)
    requires ValidConfig(c)
    requires 1.0 <= f
    requires forall i :: 0 <= i < |lookup| ==> lookup[i].trajectory < |lengths| && lookup[i].step < lengths[lookup[i].trajectory]
    ensures BaseMasters(c, lookup, lengths, f, seed) == Range(|lookup|)
  {
  }
}

=== FILE: datasets.dfy ===
/** `TrajectorySequenceDataset`: the expert trajectories, their step and
sequence indices, and the curriculum snapshot that decides which sequences a
sampler sees.

`Lookup` is the attribute `lookup`: the filtered lookup once a curriculum has
been computed, the master sequence index otherwise. `GetItem` resolves a
sampled position to its window and to the master index that hidden-state
write-back uses later.
 */
module Datasets {
  import opened Outcomes
  import opened Lookups
  import opened Trajectories
  import StepIndex
  import SequenceIndex
  import Curriculum

  datatype SequenceDataset<R, H> = SequenceDataset(
    trajectories: seq<Trajectory<R, H>>,
    stepLookup: seq<Entry>,
    sequenceLength: nat,
    sequenceLookup: seq<Entry>,
    config: Curriculum.Config,
    curriculumTraining: bool,
    curriculum: Option<Curriculum.Selection>)

  function Lookup<R, H>(ds: SequenceDataset<R, H>): seq<Entry> {
    if ds.curriculum.Some? then ds.curriculum.value.filtered else ds.sequenceLookup
  }

  /** The sequence index is usable: every sequence names a loaded trajectory. */
  predicate Indexed<R, H>(ds: SequenceDataset<R, H>) {
    Covered(ds.sequenceLookup, |ds.trajectories|)
  }

  /** The state every operation of the dataset keeps. */
  predicate Valid<R, H>(ds: SequenceDataset<R, H>) {
    && Indexed(ds)
    && (ds.curriculumTraining ==> ds.curriculum.Some?)
    && (ds.curriculum.Some? ==> Curriculum.WellFormed(ds.sequenceLookup, ds.curriculum.value))
  }

  /** `update_curriculum(f)` on the dataset: replace the snapshot wholesale. */
  function UpdateCurriculum<R, H>(ds: SequenceDataset<R, H>, f: real, seed: nat): (r: Result<SequenceDataset<R, H>>)
    requires Indexed(ds) && Curriculum.DrawnPhase(ds.config, seed)
    ensures r.Ok? ==> Valid(r.value) && r.value.curriculum.Some? && Curriculum.ValidConfig(ds.config)
    ensures r.Ok? ==> r.value == ds.(curriculum := r.value.curriculum)
    ensures r.Ok? ==> Lookup(r.value) == r.value.curriculum.value.filtered
    ensures r.Ok? ==> r.value.curriculum.value.filtered[..r.value.curriculum.value.length]
                      == Filter(ds.sequenceLookup, Curriculum.BaseKeep(ds.config, Lengths(ds.trajectories), f, seed))
    ensures r.Err? <==> Curriculum.UpdateCurriculum(ds.config, ds.sequenceLookup, Lengths(ds.trajectories), f, seed).Err?
    ensures r.Err? ==> r.error == Curriculum.UpdateCurriculum(ds.config, ds.sequenceLookup, Lengths(ds.trajectories), f, seed).error
  {
    var s :- Curriculum.UpdateCurriculum(ds.config, ds.sequenceLookup, Lengths(ds.trajectories), f, seed);
    Ok(ds.(curriculum := Some(s)))
  }

  /** `TrajectorySequenceDataset.__init__` after the trajectories are loaded:
      build the sequence index and, under curriculum training, the first
      snapshot at fraction 0 (the only path that draws a phase). */
  method Build<R, H>(trajectories: seq<Trajectory<R, H>>, stepLookup: seq<Entry>, sequenceLength: nat,
                     config: Curriculum.Config, curriculumTraining: bool, seed: nat)
    returns (r: Result<SequenceDataset<R, H>>)
    requires curriculumTraining ==> Curriculum.DrawnPhase(config, seed)
    requires Covered(stepLookup, |trajectories|)
    ensures r.Ok? ==> Valid(r.value)
    ensures r.Ok? ==> r.value.sequenceLookup == Filter(stepLookup, SequenceIndex.DatasetSequenceEnd(sequenceLength))
    ensures r.Ok? ==> r.value.trajectories == trajectories && r.value.stepLookup == stepLookup
    ensures r.Ok? ==> (r.value.curriculum.Some? <==> curriculumTraining)
    ensures !curriculumTraining ==> r.Ok? && Lookup(r.value) == r.value.sequenceLookup
    ensures curriculumTraining ==>
              var sequences := Filter(stepLookup, SequenceIndex.DatasetSequenceEnd(sequenceLength));
              var lengths := Lengths(trajectories);
              (r.Err? <==> || !Curriculum.ValidConfig(config)
                           || NoneKept(sequences, Curriculum.BaseKeep(config, lengths, 0.0, seed))
                           || (&& Curriculum.EmphasisActive(config, 0.0) && Curriculum.Copies(config) > 0
                               && NoneKept(sequences, Curriculum.BandKeep(config, lengths, 0.0))))
    ensures r.Ok? && curriculumTraining ==>
              && Curriculum.ValidConfig(config)
              && r.value.curriculum.value.filtered[..r.value.curriculum.value.length]
                 == Filter(r.value.sequenceLookup, Curriculum.BaseKeep(config, Lengths(trajectories), 0.0, seed))
    ensures r.Ok? && curriculumTraining ==>
              Curriculum.UpdateCurriculum(config, r.value.sequenceLookup, Lengths(trajectories), 0.0, seed)
              == Ok(r.value.curriculum.value)
    ensures r.Ok? && curriculumTraining ==>
              r.value.curriculum.value.filtered[r.value.curriculum.value.length..] == []
    ensures r.Err? ==> curriculumTraining && (r.error == EmptyPhaseRange <==> !Curriculum.ValidConfig(config))
    ensures r.Err? ==> r.error == EmptyPhaseRange || r.error == EmptyPool || r.error == EmptyEmphasisBand
  {
    var sequences := SequenceIndex.IdentifySequences(stepLookup, sequenceLength);
    assert Covered(sequences, |trajectories|) by {
      forall i | 0 <= i < |sequences|
        ensures sequences[i].trajectory < |trajectories|
      {
        assert sequences[i] in stepLookup;
      }
    }
    var ds := SequenceDataset(trajectories, stepLookup, sequenceLength, sequences, config, curriculumTraining, None);
    if curriculumTraining {
      r := UpdateCurriculum(ds, 0.0, seed);
    } else {
      r := Ok(ds);
    }
  }

  /** A sample: the window `get_sequence` returns and the master index. */
  datatype Sample<R, H> = Sample(window: seq<Step<R, H>>, master: nat)

  /** `__getitem__` as written: the master index is `cross_lookup[idx]` when
      the dataset was built for curriculum training and `idx` otherwise, even
      when `lookup` has since been switched to a filtered snapshot. */
  function GetItem<R, H>(ds: SequenceDataset<R, H>, idx: nat): (r: Sample<R, H>)
    requires Valid(ds) && idx < |Lookup(ds)|
    requires WindowFits(ds.trajectories, Lookup(ds)[idx], ds.sequenceLength)
    ensures |r.window| == ds.sequenceLength
    ensures ds.sequenceLength > 0 ==>
              r.window[ds.sequenceLength - 1] == ds.trajectories[Lookup(ds)[idx].trajectory].steps[Lookup(ds)[idx].step]
    ensures (ds.curriculumTraining || ds.curriculum.None?) ==>
              r.master < |ds.sequenceLookup| && ds.sequenceLookup[r.master] == Lookup(ds)[idx]
  {
    var master := if ds.curriculumTraining then ds.curriculum.value.cross[idx] else idx;
    Sample(Window(ds.trajectories, Lookup(ds)[idx], ds.sequenceLength), master)
  }

  /** What `Build` makes, without curriculum training, of two loaded
      trajectories of 5 and 8 steps with sequence length 2: the step index of
      the loader and the sequences ending past step 3. */
  function MisrouteExample(): SequenceDataset<int, int> {
    var stepLookup := StepIndex.Enumerate([5, 8]);
    SequenceDataset(
      [Trajectory(seq(5, _ => Step(0, None)), true), Trajectory(seq(8, _ => Step(0, None)), true)],
      stepLookup, 2, Filter(stepLookup, SequenceIndex.DatasetSequenceEnd(2)),
      Curriculum.Config(0, 1000, false, 0.0, 1), false, None)
  }

  /** The example's sequence index: the last step of the first trajectory
      and steps 4..7 of the second. */
  lemma MisrouteExampleSequences()
    ensures MisrouteExample().sequenceLookup == [Entry(0, 4), Entry(1, 4), Entry(1, 5), Entry(1, 6), Entry(1, 7)]
  {
    var ds := MisrouteExample();
    var run0 := StepIndex.Run(0, 5);
    var run1 := StepIndex.Run(1, 8);
    assert [5, 8][..1] == [5];
    assert StepIndex.Enumerate([5]) == StepIndex.Enumerate([]) + run0;
    assert ds.stepLookup == run0 + run1;
    // Steps 0..3 of each trajectory are too early to end a sequence.
    var isEnd := SequenceIndex.DatasetSequenceEnd(2);
    assert run0 == run0[..4] + [Entry(0, 4)];
    assert run1 == run1[..4] + run1[4..];
    FilterNoneKept(run0[..4], isEnd);
    FilterSnoc(run0[..4], Entry(0, 4), isEnd);
    FilterNoneKept(run1[..4], isEnd);
    FilterAllKept(run1[4..], isEnd);
    FilterAppend(run1[..4], run1[4..], isEnd);
    FilterAppend(run0, run1, isEnd);
    assert run1[4..] == [Entry(1, 4), Entry(1, 5), Entry(1, 6), Entry(1, 7)];
  }

  /** At fraction 0.5 and phase 0 only (1, 4) of the example lies in the
      first half of its trajectory. */
  lemma MisrouteExampleBase()
    ensures Filter([Entry(0, 4), Entry(1, 4), Entry(1, 5), Entry(1, 6), Entry(1, 7)],
                   Curriculum.BaseKeep(Curriculum.Config(0, 1000, false, 0.0, 1), [5, 8], 0.5, 0))
            == [Entry(1, 4)]
  {
    var keep := Curriculum.BaseKeep(Curriculum.Config(0, 1000, false, 0.0, 1), [5, 8], 0.5, 0);
    var tail := [Entry(1, 5), Entry(1, 6), Entry(1, 7)];
    assert [Entry(0, 4), Entry(1, 4), Entry(1, 5), Entry(1, 6), Entry(1, 7)] == [Entry(0, 4)] + [Entry(1, 4)] + tail;
    assert !keep(Entry(0, 4)) && keep(Entry(1, 4));
    FilterNoneKept([Entry(0, 4)], keep);
    FilterSnoc([Entry(0, 4)], Entry(1, 4), keep);
    assert NoneKept(tail, keep);
    FilterNoneKept(tail, keep);
    FilterAppend([Entry(0, 4)] + [Entry(1, 4)], tail, keep);
  }

  /** A dataset built without curriculum training whose curriculum is then
      refreshed (at fraction 0.5, phase 0) hands out a filtered position as
      master index: the hidden state computed for sequence (1, 4) is written
      to sequence (0, 4). */
  lemma GetItemMisroutesAfterRefresh()
    ensures Valid(MisrouteExample())
    ensures var refreshed := UpdateCurriculum(MisrouteExample(), 0.5, 0);
            && refreshed.Ok?
            && Lookup(refreshed.value) == [Entry(1, 4)]
            && GetItem(refreshed.value, 0).master == 0
            && refreshed.value.sequenceLookup[0] == Entry(0, 4)
  {
    MisrouteExampleSequences();
    MisrouteExampleBase();
    var ds := MisrouteExample();
    assert Lengths(ds.trajectories) == [5, 8];
    var refreshed := UpdateCurriculum(ds, 0.5, 0);
    var keep := Curriculum.BaseKeep(ds.config, [5, 8], 0.5, 0);
    assert !Curriculum.EmphasisActive(ds.config, 0.5);
    assert !NoneKept(ds.sequenceLookup, keep) by {
      assert keep(ds.sequenceLookup[1]);
    }
    var s := refreshed.value.curriculum.value;
    assert s.filtered == s.filtered[..s.length] + s.filtered[s.length..];
  }

  /** `__getitem__` with the master index taken from the snapshot whenever
      `lookup` is one: the round trip holds in every configuration. */
  function GetItemCorrected<R, H>(ds: SequenceDataset<R, H>, idx: nat): (r: Sample<R, H>)
    requires Valid(ds) && idx < |Lookup(ds)|
    requires WindowFits(ds.trajectories, Lookup(ds)[idx], ds.sequenceLength)
    ensures |r.window| == ds.sequenceLength
    ensures r.master < |ds.sequenceLookup| && ds.sequenceLookup[r.master] == Lookup(ds)[idx]
  {
    var master := if ds.curriculum.Some? then ds.curriculum.value.cross[idx] else idx;
    Sample(Window(ds.trajectories, Lookup(ds)[idx], ds.sequenceLength), master)
  }

  /** The writes `update_hidden` performs: `zip` pairs each listed master
      index with a hidden state and stops at the shorter list. */
  function Writes<H>(lookup: seq<Entry>, indices: seq<nat>, hidden: seq<H>): (ws: seq<Write<H>>)
    requires forall k :: 0 <= k < Min(|indices|, |hidden|) ==> indices[k] < |lookup|
    ensures |ws| == Min(|indices|, |hidden|)
    ensures forall k :: 0 <= k < |ws| ==> ws[k] == Write(lookup[indices[k]], hidden[k])
  {
    seq(Min(|indices|, |hidden|), k requires 0 <= k < Min(|indices|, |hidden|) => Write(lookup[indices[k]], hidden[k]))
  }

  /** The listed master indices name steps that exist. */
  predicate WritableIndices<R, H>(trajectories: seq<Trajectory<R, H>>, lookup: seq<Entry>, indices: seq<nat>, n: nat) {
    forall k :: 0 <= k < Min(|indices|, n) ==> indices[k] < |lookup| && Names(trajectories, lookup[indices[k]])
  }

  /** `TrajectorySequenceDataset.update_hidden`: only the end step of each
      listed master sequence gets a new hidden state (the last one listed for
      it); every other step of every trajectory, and every index, is kept. */
  function UpdateHidden<R, H>(ds: SequenceDataset<R, H>, indices: seq<nat>, hidden: seq<H>): (r: SequenceDataset<R, H>)
    requires WritableIndices(ds.trajectories, ds.sequenceLookup, indices, |hidden|)
    ensures r == ds.(trajectories := r.trajectories)
    ensures |r.trajectories| == |ds.trajectories|
    ensures forall t :: 0 <= t < |r.trajectories| ==> |r.trajectories[t].steps| == |ds.trajectories[t].steps|
    ensures forall t, s :: 0 <= t < |r.trajectories| && 0 <= s < |r.trajectories[t].steps| ==>
              (forall k :: 0 <= k < Min(|indices|, |hidden|) ==> ds.sequenceLookup[indices[k]] != Entry(t, s)) ==>
              r.trajectories[t].steps[s] == ds.trajectories[t].steps[s]
    ensures forall t, s :: 0 <= t < |r.trajectories| && 0 <= s < |r.trajectories[t].steps| ==>
              r.trajectories[t].steps[s]
              == Overwrite(ds.trajectories[t].steps[s], LastWritten(Writes(ds.sequenceLookup, indices, hidden), Entry(t, s)))
  {
    var ws := Writes(ds.sequenceLookup, indices, hidden);
    ds.(trajectories := ApplyWrites(ds.trajectories, ws))
  }
}

=== FILE: lookups.dfy ===
/** Lookup tables: ordered lists of `(trajectory_idx, step_idx)` pairs and the
order-preserving selections made from them.

Every index structure of the datasets and replay buffers is such a list; the
position of a pair in the list is the index a sampler hands out.
 */
module Lookups {

  /** One pair of a step or sequence lookup: the trajectory's position in the
      trajectory list and a step position inside that trajectory. The step is an
      `int` because `increment_step` on a trajectory without actions records
      `len(actions) - 1 == -1`. */
  datatype Entry = Entry(trajectory: nat, step: int)

  function Min(a: int, b: int): int {
    if a <= b then a else b
  }

  predicate Below(xs: seq<nat>, n: nat) {
    forall i :: 0 <= i < |xs| ==> xs[i] < n
  }

  predicate Distinct(xs: seq<nat>) {
    forall i, j :: 0 <= i < j < |xs| ==> xs[i] != xs[j]
  }

  predicate StrictlyIncreasing(xs: seq<nat>) {
    forall i, j :: 0 <= i < j < |xs| ==> xs[i] < xs[j]
  }

  /** `order` lists every position of a pool of `n` exactly once. */
  predicate IsPermutation(order: seq<nat>, n: nat) {
    |order| == n && Distinct(order) && Below(order, n)
  }

  /** No entry of `lookup` satisfies `keep`. */
  predicate NoneKept(lookup: seq<Entry>, keep: Entry -> bool) {
    forall i :: 0 <= i < |lookup| ==> !keep(lookup[i])
  }

  /** Reference definition of an order-preserving filter (a Python list
      comprehension with an `if`). */
  function Filter(lookup: seq<Entry>, keep: Entry -> bool): seq<Entry>
    decreases |lookup|
  {
    if |lookup| == 0 then []
    else
      var last := lookup[|lookup| - 1];
      Filter(lookup[..|lookup| - 1], keep) + (if keep(last) then [last] else [])
  }

  /** The entries of `lookup` at the positions `ps`, in the order of `ps`. */
  function Select(lookup: seq<Entry>, ps: seq<nat>): (r: seq<Entry>)
    requires Below(ps, |lookup|)
    ensures |r| == |ps|
    ensures forall i :: 0 <= i < |ps| ==> r[i] == lookup[ps[i]]
  {
    seq(|ps|, i requires 0 <= i < |ps| => lookup[ps[i]])
  }

  /** The positions of `lookup` whose entries satisfy `keep`: what `enumerate`
      produces alongside a filtering comprehension. */
  function Positions(lookup: seq<Entry>, keep: Entry -> bool): (ps: seq<nat>)
    ensures Below(ps, |lookup|)
    ensures StrictlyIncreasing(ps)
    ensures forall i :: 0 <= i < |ps| ==> keep(lookup[ps[i]])
    ensures forall m :: 0 <= m < |lookup| && keep(lookup[m]) ==> m in ps
    ensures Select(lookup, ps) == Filter(lookup, keep)
    decreases |lookup|
  {
    if |lookup| == 0 then []
    else
      var init := lookup[..|lookup| - 1];
      var ps0 := Positions(init, keep);
      var tail := if keep(lookup[|lookup| - 1]) then [|lookup| - 1] else [];
      assert Select(lookup, ps0) == Select(init, ps0);
      assert Select(lookup, tail) == if keep(lookup[|lookup| - 1]) then [lookup[|lookup| - 1]] else [];
      SelectAppend(lookup, ps0, tail);
      ps0 + tail
  }

  lemma {:induction false} SelectAppend(lookup: seq<Entry>, a: seq<nat>, b: seq<nat>)
    requires Below(a, |lookup|) && Below(b, |lookup|)
    ensures Below(a + b, |lookup|)
    ensures Select(lookup, a + b) == Select(lookup, a) + Select(lookup, b)
  {
  }

  /** An entry survives the filter exactly when it occurs in the lookup and
      satisfies the predicate. */
  lemma {:induction false} FilterMembership(lookup: seq<Entry>, keep: Entry -> bool)
    ensures forall e :: e in Filter(lookup, keep) <==> e in lookup && keep(e)
  {
    var ps := Positions(lookup, keep);
    var r := Filter(lookup, keep);
    assert r == Select(lookup, ps);
    forall e
      ensures e in r <==> e in lookup && keep(e)
    {
      if e in r {
        var i :| 0 <= i < |r| && r[i] == e;
        assert lookup[ps[i]] == e;
      }
      if e in lookup && keep(e) {
        var m :| 0 <= m < |lookup| && lookup[m] == e;
        assert m in ps;
        var i :| 0 <= i < |ps| && ps[i] == m;
        assert r[i] == e;
      }
    }
  }

  /** The filter of a one-entry extension is the old filter plus, when kept,
      the new entry: the step a growing index takes on each append. */
  lemma FilterSnoc(lookup: seq<Entry>, e: Entry, keep: Entry -> bool)
    ensures Filter(lookup + [e], keep) == Filter(lookup, keep) + (if keep(e) then [e] else [])
  {
  }

  /** Filtering distributes over concatenation: an index built trajectory by
      trajectory is filtered trajectory by trajectory. */
  lemma {:induction false} FilterAppend(a: seq<Entry>, b: seq<Entry>, keep: Entry -> bool)
    ensures Filter(a + b, keep) == Filter(a, keep) + Filter(b, keep)
    decreases |b|
  {
    if |b| > 0 {
      var init := b[..|b| - 1];
      var last := b[|b| - 1];
      assert a + b == (a + init) + [last];
      assert b == init + [last];
      FilterAppend(a, init, keep);
      FilterSnoc(a + init, last, keep);
      FilterSnoc(init, last, keep);
    } else {
      assert a + b == a;
    }
  }

  /** A filter that rejects every entry leaves nothing. */
  lemma {:induction false} FilterNoneKept(lookup: seq<Entry>, keep: Entry -> bool)
    requires NoneKept(lookup, keep)
    ensures Filter(lookup, keep) == []
    decreases |lookup|
  {
    if |lookup| > 0 {
      FilterNoneKept(lookup[..|lookup| - 1], keep);
    }
  }

  /** A filter that accepts every entry leaves the lookup as it is. */
  lemma {:induction false} FilterAllKept(lookup: seq<Entry>, keep: Entry -> bool)
    requires forall i :: 0 <= i < |lookup| ==> keep(lookup[i])
    ensures Filter(lookup, keep) == lookup
    decreases |lookup|
  {
    if |lookup| > 0 {
      FilterAllKept(lookup[..|lookup| - 1], keep);
    }
  }

  /** A strictly increasing list of positions below `n` has at most `n` entries. */
  lemma {:induction false} IncreasingBound(ps: seq<nat>, n: nat)
    requires StrictlyIncreasing(ps) && Below(ps, n)
    ensures |ps| <= n
    decreases |ps|
  {
    if |ps| > 0 {
      var last := ps[|ps| - 1];
      IncreasingBound(ps[..|ps| - 1], last);
    }
  }

  /** `xs` written out `k` times back to back. */
  function Repeat<T>(xs: seq<T>, k: nat): (r: seq<T>)
    ensures |r| == k * |xs|
  {
    if k == 0 then [] else Repeat(xs, k - 1) + xs
  }

  lemma {:induction false} RepeatMembers<T>(xs: seq<T>, k: nat)
    ensures forall x :: x in Repeat(xs, k) ==> x in xs
  {
    if k > 0 {
      RepeatMembers(xs, k - 1);
    }
  }

  lemma {:induction false} SelectRepeat(lookup: seq<Entry>, ps: seq<nat>, k: nat)
    requires Below(ps, |lookup|)
    ensures Below(Repeat(ps, k), |lookup|)
    ensures Select(lookup, Repeat(ps, k)) == Repeat(Select(lookup, ps), k)
  {
    RepeatMembers(ps, k);
    if k > 0 {
      SelectRepeat(lookup, ps, k - 1);
      SelectAppend(lookup, Repeat(ps, k - 1), ps);
    }
  }

  /** The positions `0 .. n-1` of a pool of `n`. */
  function Range(n: nat): (r: set<nat>)
    ensures forall i: nat :: i in r <==> i < n
    ensures |r| == n
  {
    if n == 0 then {} else Range(n - 1) + {n - 1}
  }

  /** The positions listed in `xs`, as a set. */
  function Elements(xs: seq<nat>): (r: set<nat>)
    ensures forall i :: i in r <==> i in xs
  {
    set i | i in xs
  }

  lemma {:induction false} DistinctSetSize(xs: seq<nat>)
    requires Distinct(xs)
    ensures |Elements(xs)| == |xs|
  {
    if |xs| > 0 {
      var init := xs[..|xs| - 1];
      var last := xs[|xs| - 1];
      DistinctSetSize(init);
      assert xs == init + [last];
      assert last !in Elements(init);
      assert Elements(xs) == Elements(init) + {last};
    }
  }

  /** Pigeonhole: `n` distinct positions below `n` are all of them. */
  lemma CoversRange(xs: seq<nat>, n: nat)
    requires |xs| == n && Distinct(xs) && Below(xs, n)
    ensures Elements(xs) == Range(n)
  {
    var a := Elements(xs);
    var b := Range(n);
    DistinctSetSize(xs);
    assert a <= b;
    assert |b - a| == |b| - |a|;
  }
}

=== FILE: mixed.dfy ===
/** `MixedReplayBuffer` and `MixedSequenceReplayBuffer`: every training batch
is an expert part drawn from the expert dataset's loader and a replay part
drawn from the online buffer, split by `expert_sample_fraction`.

The expert `DataLoader` (shuffled, `drop_last=True`) is modelled by the number
of full batches its iterator still has; which sequences a batch holds is not
modelled. A fresh loader over a pool of `n` sequences holds `n / expert_batch`
batches.
 */
module Mixed {
  import opened Outcomes
  import opened Lookups
  import opened Trajectories
  import Curriculum
  import Datasets
  import Replay

  /** The expert and replay shares of one batch. */
  datatype Split = Split(expert: int, replay: int)

  /** `expert_batch_size = floor(batch_size * expert_sample_fraction)` and the
      rest to replay. The expert share is the largest integer not above the
      product, and the two shares always make up the batch. */
  function BatchSplit(batchSize: nat, fraction: real): (s: Split)
    ensures s.expert + s.replay == batchSize
    ensures s.expert as real <= batchSize as real * fraction < s.expert as real + 1.0
    ensures 0.0 <= fraction ==> 0 <= s.expert
    ensures fraction <= 1.0 ==> 0 <= s.replay
  {
    var expert := (batchSize as real * fraction).Floor;
    ShareBounds(batchSize, fraction);
    Split(expert, batchSize - expert)
  }

  lemma ShareBounds(batchSize: nat, fraction: real)
    ensures 0.0 <= fraction ==> 0.0 <= batchSize as real * fraction
    ensures fraction <= 1.0 ==> batchSize as real * fraction <= batchSize as real
  {
  }

  /** The legacy default (64, 0.5) and a fraction that does not divide the
      batch evenly. */
  lemma SplitExamples()
    ensures BatchSplit(64, 0.5) == Split(32, 32)
    ensures BatchSplit(64, 0.3) == Split(19, 45)
  {
  }

  datatype MixedBuffer<R, H> = MixedBuffer(
    replay: Replay.SequenceReplayBuffer<R, H>,
    expert: Datasets.SequenceDataset<R, H>,
    split: Split,
    remainingBatches: nat,
    curriculumTraining: bool,
    curriculumRefreshSteps: nat,
    curriculumFraction: Option<real>)

  /** Full batches a fresh loader over `ds` holds. */
  function FreshBatches<R, H>(ds: Datasets.SequenceDataset<R, H>, expertBatch: int): nat
    requires expertBatch >= 1
  {
    |Datasets.Lookup(ds)| / expertBatch
  }

  /** The loader never promises more expert sequences than the dataset's
      current lookup holds. */
  predicate LoaderFits<R, H>(m: MixedBuffer<R, H>) {
    m.split.expert >= 1 && m.remainingBatches * m.split.expert <= |Datasets.Lookup(m.expert)|
  }

  /** Everything `Valid` asks except the loader bound. */
  predicate Parts<R, H>(m: MixedBuffer<R, H>) {
    && Datasets.Valid(m.expert)
    && m.split.expert >= 1
    && Replay.Complete(m.replay.buffer)
    && Replay.SequenceConsistent(m.replay)
  }

  predicate Valid<R, H>(m: MixedBuffer<R, H>) {
    Parts(m) && LoaderFits(m)
  }

  /** `n / d` full batches of `d` fit in `n`, and one more would not. */
  lemma BatchesBound(n: nat, d: int)
    requires d >= 1
    ensures (n / d) * d <= n < (n / d + 1) * d
  {
  }

  lemma FewerBatchesFit(k: nat, d: int, n: nat)
    requires d >= 1 && k * d <= n
    ensures k > 0 ==> (k - 1) * d <= n
  {
  }

  /** A loader restarted over `m.expert`, before any batch is taken. */
  function Restart<R, H>(m: MixedBuffer<R, H>): (r: MixedBuffer<R, H>)
    requires m.split.expert >= 1
    ensures r == m.(remainingBatches := r.remainingBatches)
    ensures r.remainingBatches * m.split.expert <= |Datasets.Lookup(m.expert)|
            < (r.remainingBatches + 1) * m.split.expert
    ensures Parts(m) ==> Valid(r)
  {
    BatchesBound(|Datasets.Lookup(m.expert)|, m.split.expert);
    m.(remainingBatches := FreshBatches(m.expert, m.split.expert))
  }

  /** `MixedSequenceReplayBuffer.__init__`: the replay part starts empty, or
      takes over the trajectories, step index and sequence index of
      `initial_replay_buffer`; the expert loader starts fresh. The shuffled
      `DataLoader` builds its `RandomSampler` first, which refuses an empty
      expert lookup, and then refuses a floor share below 1 as batch size. */
  function NewMixed<R, H>(expert: Datasets.SequenceDataset<R, H>, batchSize: nat, fraction: real,
                          curriculumTraining: bool, curriculumRefreshSteps: nat,
                          initialReplay: Option<Replay.SequenceReplayBuffer<R, H>>): (r: Result<MixedBuffer<R, H>>)
    requires Datasets.Valid(expert)
    ensures r.Err? <==> |Datasets.Lookup(expert)| == 0 || batchSize as real * fraction < 1.0
    ensures r.Err? ==> r.error == if |Datasets.Lookup(expert)| == 0 then EmptyLoader else InvalidBatchSize
    ensures r.Ok? ==> r.value.split == BatchSplit(batchSize, fraction)
    ensures r.Ok? ==> r.value.expert == expert && r.value.curriculumFraction.None?
    ensures r.Ok? ==> r.value.curriculumTraining == curriculumTraining
                      && r.value.curriculumRefreshSteps == curriculumRefreshSteps
    ensures r.Ok? ==> r.value.replay.sequenceLength == expert.sequenceLength
    ensures r.Ok? && initialReplay.None? ==> r.value.replay.sequenceLookup == [] && Valid(r.value)
    ensures r.Ok? && initialReplay.Some? ==>
              && r.value.replay.buffer == initialReplay.value.buffer
              && r.value.replay.sequenceLookup == initialReplay.value.sequenceLookup
    ensures r.Ok? && initialReplay.Some? && initialReplay.value.sequenceLength == expert.sequenceLength
            && Replay.Complete(initialReplay.value.buffer) && Replay.SequenceConsistent(initialReplay.value) ==>
              Valid(r.value)
    ensures r.Ok? ==> r.value.remainingBatches * r.value.split.expert <= |Datasets.Lookup(expert)|
                      < (r.value.remainingBatches + 1) * r.value.split.expert
  {
    var split := BatchSplit(batchSize, fraction);
    var replay := match initialReplay
      case None => Replay.NewSequenceReplayBuffer(expert.sequenceLength)
      case Some(initial) => Replay.SequenceReplayBuffer(initial.buffer, expert.sequenceLength, initial.sequenceLookup);
    if |Datasets.Lookup(expert)| == 0 then
      Err(EmptyLoader)
    else if split.expert < 1 then
      Err(InvalidBatchSize)
    else
      Ok(Restart(MixedBuffer(replay, expert, split, 0, curriculumTraining, curriculumRefreshSteps, None)))
  }

  /** `_initialize_dataloader` and `next` on the fresh loader: an empty
      dataset is refused when the loader is built; otherwise the batch it
      yields leaves the rest of a fresh epoch, or the loader holds no full
      batch either and `StopIteration` escapes. */
  function Reinitialise<R, H>(m: MixedBuffer<R, H>): (r: Result<MixedBuffer<R, H>>)
    requires m.split.expert >= 1
    ensures r.Ok? <==> |Datasets.Lookup(m.expert)| >= m.split.expert
    ensures r.Err? ==> r.error == if |Datasets.Lookup(m.expert)| == 0 then EmptyLoader else ExpertPoolExhausted
    ensures r.Ok? ==> r.value == m.(remainingBatches := r.value.remainingBatches)
    ensures r.Ok? ==> r.value.remainingBatches == FreshBatches(m.expert, m.split.expert) - 1
    ensures r.Ok? && Parts(m) ==> Valid(r.value)
  {
    var restarted := Restart(m);
    if |Datasets.Lookup(m.expert)| == 0 then
      Err(EmptyLoader)
    else if restarted.remainingBatches == 0 then
      Err(ExpertPoolExhausted)
    else
      FewerBatchesFit(restarted.remainingBatches, m.split.expert, |Datasets.Lookup(m.expert)|);
      Ok(restarted.(remainingBatches := restarted.remainingBatches - 1))
  }

  /** `MixedReplayBuffer.sample_expert`: take the next batch; when the loader
      is spent, refresh the curriculum (under curriculum training, with the
      last stored fraction), reinitialise the loader and try exactly once
      more. A spent loader is the only way to the refresh, and a second spent
      loader is an error, not another refresh. */
  function SampleExpert<R, H>(m: MixedBuffer<R, H>, seed: nat): (r: Result<MixedBuffer<R, H>>)
    requires Valid(m) && Curriculum.DrawnPhase(m.expert.config, seed)
    ensures r.Ok? ==> Valid(r.value)
    ensures r.Ok? ==> r.value.replay == m.replay && r.value.split == m.split
                      && r.value.curriculumFraction == m.curriculumFraction
    ensures r.Ok? ==> r.value == m.(expert := r.value.expert, remainingBatches := r.value.remainingBatches)
    ensures m.remainingBatches > 0 ==> r == Ok(m.(remainingBatches := m.remainingBatches - 1))
    ensures m.remainingBatches == 0 && !m.curriculumTraining ==>
              && (r.Ok? <==> |Datasets.Lookup(m.expert)| >= m.split.expert)
              && (r.Ok? ==> r.value.expert == m.expert)
              && (r.Err? ==> r.error == if |Datasets.Lookup(m.expert)| == 0 then EmptyLoader else ExpertPoolExhausted)
    ensures m.remainingBatches == 0 && m.curriculumTraining && m.curriculumFraction.None? ==>
              r == Err(MissingFraction)
    ensures m.remainingBatches == 0 && m.curriculumTraining && m.curriculumFraction.Some? ==>
              var refreshed := Datasets.UpdateCurriculum(m.expert, m.curriculumFraction.value, seed);
              && (refreshed.Err? ==> r == Err(refreshed.error))
              && (refreshed.Ok? ==> (r.Ok? <==> |Datasets.Lookup(refreshed.value)| >= m.split.expert))
              && (refreshed.Ok? && r.Ok? ==> r.value.expert == refreshed.value)
              && (refreshed.Ok? && r.Err? ==> r.error == ExpertPoolExhausted)
    ensures r.Ok? && m.remainingBatches == 0 ==>
              r.value.remainingBatches == FreshBatches(r.value.expert, m.split.expert) - 1
  {
    if m.remainingBatches > 0 then
      FewerBatchesFit(m.remainingBatches, m.split.expert, |Datasets.Lookup(m.expert)|);
      Ok(m.(remainingBatches := m.remainingBatches - 1))
    else if !m.curriculumTraining then
      Reinitialise(m)
    else if m.curriculumFraction.None? then
      Err(MissingFraction)
    else
      var expert :- Datasets.UpdateCurriculum(m.expert, m.curriculumFraction.value, seed);
      assert |Datasets.Lookup(expert)| > 0;
      Reinitialise(m.(expert := expert))
  }

  /** The batches still available in the legacy loader of helpers/datasets.py
      after one `sample_expert`: the same single retry, with no curriculum,
      and the same refusal of an empty dataset by the rebuilt loader. */
  function LegacySampleExpert(remainingBatches: nat, poolSize: nat, expertBatch: nat): (r: Result<nat>)
    requires expertBatch >= 1
    ensures remainingBatches > 0 ==> r == Ok(remainingBatches - 1)
    ensures remainingBatches == 0 ==> (r.Ok? <==> poolSize >= expertBatch)
    ensures r.Ok? ==> r.value * expertBatch <= poolSize || remainingBatches > 0
    ensures r.Err? ==> remainingBatches == 0 && r.error == if poolSize == 0 then EmptyLoader else ExpertPoolExhausted
  {
    if remainingBatches > 0 then Ok(remainingBatches - 1)
    else if poolSize == 0 then Err(EmptyLoader)
    else if poolSize / expertBatch == 0 then Err(ExpertPoolExhausted)
    else Ok(poolSize / expertBatch - 1)
  }

  /** Without curriculum training the core's `sample_expert` is the legacy
      one: it never touches the expert dataset, and its loader count and
      failure are the legacy loader's. */
  lemma {:induction false} SampleExpertWithoutCurriculumIsLegacy<R, H>(m: MixedBuffer<R, H>, seed: nat)
    requires Valid(m) && Curriculum.DrawnPhase(m.expert.config, seed) && !m.curriculumTraining
    ensures var r := SampleExpert(m, seed);
            var legacy := LegacySampleExpert(m.remainingBatches, |Datasets.Lookup(m.expert)|, m.split.expert);
            && r.Ok? == legacy.Ok?
            && (r.Ok? ==> r.value.expert == m.expert && r.value.remainingBatches == legacy.value)
            && (r.Err? ==> r.error == legacy.error)
  {
  }

  /** A refreshed curriculum is never larger than the master sequence index:
      `current_curriculum_length / len(sequence_lookup)` lies in (0, 1]. */
  lemma CurriculumLengthBound(lookup: seq<Entry>, s: Curriculum.Selection)
    requires Curriculum.WellFormed(lookup, s)
    ensures 0 < s.length <= |lookup|
  {
    var base := s.cross[..s.length];
    assert Below(base, |lookup|);
    IncreasingBound(base, |lookup|);
  }

  /** What `update_curriculum` reports: the inclusion ratio of the curriculum
      after the call. */
  datatype Progress<R, H> = Progress(buffer: MixedBuffer<R, H>, inclusion: real)

  /** `expert_dataset.update_curriculum(f)` followed by a restarted loader. */
  function Refresh<R, H>(m: MixedBuffer<R, H>, f: real, seed: nat): (r: Result<MixedBuffer<R, H>>)
    requires Valid(m) && Curriculum.DrawnPhase(m.expert.config, seed)
    ensures var refreshed := Datasets.UpdateCurriculum(m.expert, f, seed);
            && (refreshed.Err? ==> r == Err(refreshed.error))
            && (refreshed.Ok? ==> r.Ok? && r.value.expert == refreshed.value
                                  && r.value == m.(expert := refreshed.value, remainingBatches := r.value.remainingBatches)
                                  && r.value.remainingBatches == FreshBatches(refreshed.value, m.split.expert))
    ensures r.Ok? ==> Valid(r.value) && r.value.expert.curriculum.Some?
    ensures r.Ok? ==> r.value.expert.sequenceLookup == m.expert.sequenceLookup
  {
    var expert :- Datasets.UpdateCurriculum(m.expert, f, seed);
    Ok(Restart(m.(expert := expert)))
  }

  /** `current_curriculum_length / len(sequence_lookup)`. */
  function Inclusion<R, H>(ds: Datasets.SequenceDataset<R, H>): (ratio: real)
    requires Datasets.Valid(ds) && ds.curriculum.Some?
    ensures 0.0 < ratio <= 1.0
    ensures ratio * |ds.sequenceLookup| as real == ds.curriculum.value.length as real
  {
    CurriculumLengthBound(ds.sequenceLookup, ds.curriculum.value);
    ds.curriculum.value.length as real / |ds.sequenceLookup| as real
  }

  /** `MixedReplayBuffer.update_curriculum(step, f)`: store `f`, and every
      `curriculum_refresh_steps` steps, while `f` is below the final fraction,
      refresh the expert curriculum and restart its loader. */
  function UpdateCurriculum<R, H>(m: MixedBuffer<R, H>, step: nat, f: real, seed: nat): (r: Result<Progress<R, H>>)
    requires Valid(m) && Curriculum.DrawnPhase(m.expert.config, seed)
    ensures m.expert.curriculum.None? ==> r == Err(MissingCurriculum)
    ensures m.expert.curriculum.Some? && m.curriculumRefreshSteps == 0 ==> r == Err(ZeroRefreshInterval)
    ensures r.Ok? ==> Valid(r.value.buffer) && r.value.buffer.curriculumFraction == Some(f)
    ensures r.Ok? ==> r.value.buffer.replay == m.replay && r.value.buffer.split == m.split
    ensures r.Ok? ==> r.value.buffer == m.(expert := r.value.buffer.expert,
                                          remainingBatches := r.value.buffer.remainingBatches,
                                          curriculumFraction := Some(f))
    ensures r.Ok? ==> 0.0 < r.value.inclusion <= 1.0
    ensures r.Ok? ==> r.value.buffer.expert.sequenceLookup == m.expert.sequenceLookup
    ensures r.Ok? ==> r.value.buffer.expert.curriculum.Some?
                      && r.value.inclusion == Inclusion(r.value.buffer.expert)
    ensures m.expert.curriculum.Some? && m.curriculumRefreshSteps > 0
            && !(step % m.curriculumRefreshSteps == 0 && f < Curriculum.FinalFraction(m.expert.config)) ==>
              r.Ok? && r.value.buffer == m.(curriculumFraction := Some(f))
    ensures m.expert.curriculum.Some? && m.curriculumRefreshSteps > 0
            && step % m.curriculumRefreshSteps == 0 && f < Curriculum.FinalFraction(m.expert.config) ==>
              var refreshed := Datasets.UpdateCurriculum(m.expert, f, seed);
              && (refreshed.Err? ==> r == Err(refreshed.error))
              && (refreshed.Ok? ==> r.Ok? && r.value.buffer.expert == refreshed.value
                                    && r.value.buffer.remainingBatches == FreshBatches(refreshed.value, m.split.expert))
  {
    if m.expert.curriculum.None? then
      Err(MissingCurriculum)
    else if m.curriculumRefreshSteps == 0 then
      Err(ZeroRefreshInterval)
    else
      var stored := m.(curriculumFraction := Some(f));
      if step % m.curriculumRefreshSteps == 0 && f < Curriculum.FinalFraction(m.expert.config) then
        match Refresh(stored, f, seed)
        case Err(e) => Err(e)
        case Ok(next) => Ok(Progress(next, Inclusion(next.expert)))
      else
        Ok(Progress(stored, Inclusion(stored.expert)))
  }

  datatype MixedBatch<R, H> = MixedBatch(buffer: MixedBuffer<R, H>, replayBatch: seq<Replay.SequenceSample<R, H>>)

  /** One call of `MixedReplayBuffer.sample(batch_size)`: the expert part
      first, then the replay part of `replay_batch_size` sequences, which
      `random.sample` refuses when negative and `default_collate` when it
      draws nothing. `batch_size` is accepted and ignored. */
  function Sample<R, H>(m: MixedBuffer<R, H>, batchSize: nat, seed: nat, order: seq<nat>): (r: Result<MixedBatch<R, H>>)
    requires Valid(m) && Curriculum.DrawnPhase(m.expert.config, seed)
    requires IsPermutation(order, |m.replay.sequenceLookup|)
    ensures SampleExpert(m, seed).Err? ==> r == Err(SampleExpert(m, seed).error)
    ensures SampleExpert(m, seed).Ok? && m.split.replay < 0 ==> r == Err(InvalidBatchSize)
    ensures r.Ok? ==> Ok(r.value.buffer) == SampleExpert(m, seed)
    ensures SampleExpert(m, seed).Ok? && 0 <= m.split.replay && Min(m.split.replay, |m.replay.sequenceLookup|) == 0 ==>
              r == Err(EmptyDraw)
    ensures r.Ok? ==> 0 < |r.value.replayBatch| == Min(m.split.replay, |m.replay.sequenceLookup|)
    ensures SampleExpert(m, seed).Ok? && 0 < Min(m.split.replay, |m.replay.sequenceLookup|) ==> r.Ok?
    ensures r.Ok? ==> forall i, j :: 0 <= i < j < |r.value.replayBatch| ==>
                        r.value.replayBatch[i].index != r.value.replayBatch[j].index
    ensures r.Ok? ==> Replay.WindowsExist(m.replay)
    ensures r.Ok? ==> forall i :: 0 <= i < |r.value.replayBatch| ==>
                        && r.value.replayBatch[i].index < |m.replay.sequenceLookup|
                        && r.value.replayBatch[i].window
                           == Window(m.replay.buffer.trajectories, m.replay.sequenceLookup[r.value.replayBatch[i].index],
                                     m.replay.sequenceLength)
  {
    var buffer :- SampleExpert(m, seed);
    if m.split.replay < 0 then
      Err(InvalidBatchSize)
    else if Min(m.split.replay, |m.replay.sequenceLookup|) == 0 then
      Err(EmptyDraw)
    else
      Replay.ConsistentWindowsExist(m.replay);
      Ok(MixedBatch(buffer, Replay.SampleSequences(m.replay, m.split.replay, order)))
  }

  /** The result of `sample` does not depend on its `batch_size` argument. */
  lemma SampleIgnoresBatchSize<R, H>(m: MixedBuffer<R, H>, b1: nat, b2: nat, seed: nat, order: seq<nat>)
    requires Valid(m) && Curriculum.DrawnPhase(m.expert.config, seed)
    requires IsPermutation(order, |m.replay.sequenceLookup|)
    ensures Sample(m, b1, seed, order) == Sample(m, b2, seed, order)
  {
  }

  /** `MixedSequenceReplayBuffer.update_hidden`: the replay writes go to the
      replay trajectories through the replay sequence index, the expert writes
      to the expert trajectories through the master sequence index; no index,
      loader or split changes. */
  function UpdateHidden<R, H>(m: MixedBuffer<R, H>, replayIndices: seq<nat>, replayHidden: seq<H>,
                              expertIndices: seq<nat>, expertHidden: seq<H>): (r: MixedBuffer<R, H>)
    requires Datasets.WritableIndices(m.replay.buffer.trajectories, m.replay.sequenceLookup, replayIndices, |replayHidden|)
    requires Datasets.WritableIndices(m.expert.trajectories, m.expert.sequenceLookup, expertIndices, |expertHidden|)
    ensures r == m.(replay := r.replay, expert := r.expert)
    ensures r.replay == m.replay.(buffer := m.replay.buffer.(trajectories := r.replay.buffer.trajectories))
    ensures r.expert == m.expert.(trajectories := r.expert.trajectories)
    ensures Lengths(r.replay.buffer.trajectories) == Lengths(m.replay.buffer.trajectories)
    ensures Lengths(r.expert.trajectories) == Lengths(m.expert.trajectories)
    ensures forall t, s :: 0 <= t < |r.replay.buffer.trajectories| && 0 <= s < |r.replay.buffer.trajectories[t].steps| ==>
              r.replay.buffer.trajectories[t].steps[s]
              == Overwrite(m.replay.buffer.trajectories[t].steps[s],
                           LastWritten(Datasets.Writes(m.replay.sequenceLookup, replayIndices, replayHidden), Entry(t, s)))
    ensures forall t, s :: 0 <= t < |r.expert.trajectories| && 0 <= s < |r.expert.trajectories[t].steps| ==>
              r.expert.trajectories[t].steps[s]
              == Overwrite(m.expert.trajectories[t].steps[s],
                           LastWritten(Datasets.Writes(m.expert.sequenceLookup, expertIndices, expertHidden), Entry(t, s)))
    ensures Valid(m) ==> Valid(r)
  {
    m.(replay := Replay.UpdateHidden(m.replay, replayIndices, replayHidden),
       expert := Datasets.UpdateHidden(m.expert, expertIndices, expertHidden))
  }
}

=== FILE: outcomes.dfy ===
/** Failure-compatible results for the indexing core.

The Python code signals its error conditions by raising (a `ValueError` from an
unpacking of `zip(*[])`, from `random.randint` on an empty range or from PyTorch's
`RandomSampler`, a `StopIteration` that
escapes, an `AttributeError` on a field that was never set, a `ZeroDivisionError`,
an `IndexError` in `default_collate`). The model returns those conditions as values.
 */
module Outcomes {

  datatype Option<+T> = None | Some(value: T)

  /** The conditions the core raises instead of returning a value. */
  datatype Failure =
    | EmptyPool            // no sequence passes the base curriculum rule: `zip(*[])` cannot be unpacked
    | EmptyEmphasisBand    // the emphasis pass finds no sequence in the newly unlocked band: same unpacking
    | ExpertPoolExhausted  // the reinitialised expert loader has no full batch either: `next` raises again
    | MissingCurriculum    // `current_curriculum_length` is read before any curriculum was computed
    | MissingFraction      // `curriculum_fraction` is read before `update_curriculum` ever stored one
    | InvalidBatchSize     // a batch size the `DataLoader` (below 1) or `random.sample` (below 0) rejects
    | ZeroRefreshInterval  // `step % curriculum_refresh_steps` with a refresh interval of 0
    | EmptyLoader          // a shuffled `DataLoader` over a dataset of length 0: its `RandomSampler` refuses it
    | EmptyDraw            // `default_collate([])` on an empty replay draw reads `batch[0]`
    | EmptyPhaseRange      // `random.randint(0, extracurricular_sparsity - 1)` with a sparsity below 1

  datatype Result<+T> = Ok(value: T) | Err(error: Failure) {

    predicate IsFailure() {
      Err?
    }

    function PropagateFailure<U>(): Result<U>
      requires Err?
    {
      Err(error)
    }

    function Extract(): T
      requires Ok?
    {
      value
    }
  }
}

=== FILE: replay.dfy ===
/** The online replay buffers: `ReplayBuffer` (a flat step index over a growing
trajectory list) and `SequenceReplayBuffer` (which also grows a sequence
index), with their append, reset, sampling and hidden-state write-back.

The step index of a buffer built only through `AppendStep` and
`NewTrajectory` is always the reference flat index of its trajectories
(`Complete`), and the sequence index is always the replay rule's filter of the
step index (`SequenceConsistent`): growing it on each append gives what a
rebuild from scratch would.
 */
module Replay {
  import opened Outcomes
  import opened Lookups
  import opened Trajectories
  import StepIndex
  import SequenceIndex
  import Datasets

  datatype ReplayBuffer<R, H> = ReplayBuffer(trajectories: seq<Trajectory<R, H>>, stepLookup: seq<Entry>)

  datatype SequenceReplayBuffer<R, H> = SequenceReplayBuffer(
    buffer: ReplayBuffer<R, H>,
    sequenceLength: nat,
    sequenceLookup: seq<Entry>)

  /** The step index lists every recorded step, trajectory by trajectory. */
  predicate Complete<R, H>(b: ReplayBuffer<R, H>) {
    b.stepLookup == StepIndex.Enumerate(Lengths(b.trajectories))
  }

  /** The sequence index is the replay rule's filter of the step index. */
  predicate SequenceConsistent<R, H>(sb: SequenceReplayBuffer<R, H>) {
    sb.sequenceLookup == Filter(sb.buffer.stepLookup, SequenceIndex.ReplaySequenceEnd(sb.sequenceLength))
  }

  /** `ReplayBuffer.__init__`: one empty trajectory, no steps. */
  function NewReplayBuffer<R, H>(): (b: ReplayBuffer<R, H>)
    ensures Complete(b) && |b.trajectories| == 1 && b.stepLookup == []
  {
    var b := ReplayBuffer([EmptyTrajectory()], []);
    assert Lengths(b.trajectories) == [0];
    assert StepIndex.Enumerate([0]) == StepIndex.Enumerate([]) + StepIndex.Run(0, 0);
    b
  }

  /** `SequenceReplayBuffer.__init__`. */
  function NewSequenceReplayBuffer<R, H>(sequenceLength: nat): (sb: SequenceReplayBuffer<R, H>)
    ensures sb.sequenceLength == sequenceLength && sb.buffer == NewReplayBuffer()
    ensures Complete(sb.buffer) && SequenceConsistent(sb) && sb.sequenceLookup == []
  {
    SequenceReplayBuffer(NewReplayBuffer(), sequenceLength, [])
  }

  /** `new_trajectory`: start an empty trajectory; no index changes. */
  function NewTrajectory<R, H>(b: ReplayBuffer<R, H>): (r: ReplayBuffer<R, H>)
    ensures r.stepLookup == b.stepLookup
    ensures |r.trajectories| == |b.trajectories| + 1 && r.trajectories[|b.trajectories|].steps == []
    ensures r.trajectories[..|b.trajectories|] == b.trajectories
    ensures Complete(b) ==> Complete(r)
  {
    var r := ReplayBuffer(b.trajectories + [EmptyTrajectory()], b.stepLookup);
    assert Lengths(r.trajectories) == Lengths(b.trajectories) + [0];
    StepIndex.EnumerateNewTrajectory(Lengths(b.trajectories));
    r
  }

  /** `increment_step`: record the newest step of the current trajectory.
      Nothing already in the index moves. */
  function IncrementStep<R, H>(b: ReplayBuffer<R, H>): (r: ReplayBuffer<R, H>)
    requires |b.trajectories| > 0
    ensures r.trajectories == b.trajectories
    ensures |r.stepLookup| == |b.stepLookup| + 1 && r.stepLookup[..|b.stepLookup|] == b.stepLookup
    ensures r.stepLookup[|b.stepLookup|]
            == Entry(|b.trajectories| - 1, |b.trajectories[|b.trajectories| - 1].steps| - 1)
  {
    var current := b.trajectories[|b.trajectories| - 1];
    ReplayBuffer(b.trajectories, b.stepLookup + [Entry(|b.trajectories| - 1, |current.steps| - 1)])
  }

  /** Push one step onto the current trajectory (what `append_step` does
      before it calls `increment_step`; in the older buffer the agent does it). */
  function RecordStep<R, H>(b: ReplayBuffer<R, H>, record: R, done: bool): (r: ReplayBuffer<R, H>)
    requires |b.trajectories| > 0
    ensures r.stepLookup == b.stepLookup && |r.trajectories| == |b.trajectories|
    ensures var n := |b.trajectories| - 1;
            && r.trajectories[..n] == b.trajectories[..n]
            && r.trajectories[n].steps == b.trajectories[n].steps + [Step(record, None)]
            && r.trajectories[n].done == done
  {
    var n := |b.trajectories| - 1;
    var current := b.trajectories[n];
    b.(trajectories := b.trajectories[n := Trajectory(current.steps + [Step(record, None)], done)])
  }

  lemma RecordStepLengths<R, H>(b: ReplayBuffer<R, H>, record: R, done: bool)
    requires |b.trajectories| > 0
    ensures var n := |b.trajectories| - 1;
            Lengths(RecordStep(b, record, done).trajectories) == Lengths(b.trajectories)[n := |b.trajectories[n].steps| + 1]
  {
  }

  /** Recording a step and then incrementing keeps the step index complete:
      the appended pair is exactly the one naming the new step. */
  lemma {:induction false} IncrementAfterRecordKeepsComplete<R, H>(b: ReplayBuffer<R, H>, record: R, done: bool)
    requires |b.trajectories| > 0 && Complete(b)
    ensures Complete(IncrementStep(RecordStep(b, record, done)))
  {
    var n := |b.trajectories| - 1;
    RecordStepLengths(b, record, done);
    StepIndex.EnumerateGrowLast(Lengths(b.trajectories));
  }

  /** `append_step`: push the step, mark `done`, and index it. The new pair
      names the step just pushed; all earlier pairs and trajectories stay. */
  function AppendStep<R, H>(b: ReplayBuffer<R, H>, record: R, done: bool): (r: ReplayBuffer<R, H>)
    requires |b.trajectories| > 0
    ensures |r.trajectories| == |b.trajectories|
    ensures r.trajectories[..|b.trajectories| - 1] == b.trajectories[..|b.trajectories| - 1]
    ensures r.trajectories[|b.trajectories| - 1].done == done
    ensures r.trajectories[|b.trajectories| - 1].steps == b.trajectories[|b.trajectories| - 1].steps + [Step(record, None)]
    ensures |r.stepLookup| == |b.stepLookup| + 1 && r.stepLookup[..|b.stepLookup|] == b.stepLookup
    ensures Names(r.trajectories, r.stepLookup[|b.stepLookup|])
    ensures r.trajectories[r.stepLookup[|b.stepLookup|].trajectory].steps[r.stepLookup[|b.stepLookup|].step] == Step(record, None)
    ensures Complete(b) ==> Complete(r)
  {
    if Complete(b) then
      IncrementAfterRecordKeepsComplete(b, record, done);
      IncrementStep(RecordStep(b, record, done))
    else
      IncrementStep(RecordStep(b, record, done))
  }

  /** `SequenceReplayBuffer.increment_step`: index the step, and index it as a
      sequence end too once the current trajectory has more than
      `sequence_length + 1` steps. */
  function SequenceIncrementStep<R, H>(sb: SequenceReplayBuffer<R, H>): (r: SequenceReplayBuffer<R, H>)
    requires |sb.buffer.trajectories| > 0
    ensures r.buffer == IncrementStep(sb.buffer) && r.sequenceLength == sb.sequenceLength
    ensures var current := sb.buffer.trajectories[|sb.buffer.trajectories| - 1];
            r.sequenceLookup == sb.sequenceLookup
              + if |current.steps| > sb.sequenceLength + 1 then [Entry(|sb.buffer.trajectories| - 1, |current.steps| - 1)] else []
    ensures SequenceConsistent(sb) ==> SequenceConsistent(r)
  {
    var buffer := IncrementStep(sb.buffer);
    var current := sb.buffer.trajectories[|sb.buffer.trajectories| - 1];
    var e := Entry(|sb.buffer.trajectories| - 1, |current.steps| - 1);
    FilterSnoc(sb.buffer.stepLookup, e, SequenceIndex.ReplaySequenceEnd(sb.sequenceLength));
    if |current.steps| > sb.sequenceLength + 1 then
      SequenceReplayBuffer(buffer, sb.sequenceLength, sb.sequenceLookup + [e])
    else
      SequenceReplayBuffer(buffer, sb.sequenceLength, sb.sequenceLookup)
  }

  /** `append_step` on a sequence buffer. */
  function SequenceAppendStep<R, H>(sb: SequenceReplayBuffer<R, H>, record: R, done: bool): (r: SequenceReplayBuffer<R, H>)
    requires |sb.buffer.trajectories| > 0
    ensures r.buffer == AppendStep(sb.buffer, record, done)
    ensures |r.sequenceLookup| >= |sb.sequenceLookup| && r.sequenceLookup[..|sb.sequenceLookup|] == sb.sequenceLookup
    ensures SequenceConsistent(sb) ==> SequenceConsistent(r)
  {
    SequenceIncrementStep(sb.(buffer := RecordStep(sb.buffer, record, done)))
  }

  function SequenceNewTrajectory<R, H>(sb: SequenceReplayBuffer<R, H>): (r: SequenceReplayBuffer<R, H>)
    ensures r.buffer == NewTrajectory(sb.buffer) && r.sequenceLookup == sb.sequenceLookup
    ensures SequenceConsistent(sb) ==> SequenceConsistent(r)
  {
    sb.(buffer := NewTrajectory(sb.buffer))
  }

  /** What the environment loop does to the buffer. */
  datatype Event<R> = Appended(record: R, done: bool) | Reset

  function Play<R, H>(sb: SequenceReplayBuffer<R, H>, events: seq<Event<R>>): (r: SequenceReplayBuffer<R, H>)
    requires |sb.buffer.trajectories| > 0
    ensures |r.buffer.trajectories| > 0
    decreases |events|
  {
    if |events| == 0 then sb
    else
      var before := Play(sb, events[..|events| - 1]);
      match events[|events| - 1]
      case Appended(record, done) => SequenceAppendStep(before, record, done)
      case Reset => SequenceNewTrajectory(before)
  }

  /** Incremental and batch construction agree: any run of appends and resets
      keeps the step index equal to the reference flat index and the sequence
      index equal to its rebuild. */
  lemma {:induction false} IncrementalMatchesRebuild<R, H>(sb: SequenceReplayBuffer<R, H>, events: seq<Event<R>>)
    requires |sb.buffer.trajectories| > 0 && Complete(sb.buffer) && SequenceConsistent(sb)
    ensures Complete(Play(sb, events).buffer) && SequenceConsistent(Play(sb, events))
    decreases |events|
  {
    if |events| > 0 {
      IncrementalMatchesRebuild(sb, events[..|events| - 1]);
    }
  }

  /** `random.sample(range(pool), min(batch_size, pool))`, with the random
      choice given as `order`, a permutation of the pool, whose first
      `min(batch_size, pool)` positions are drawn. */
  function DrawIndices(pool: nat, batchSize: nat, order: seq<nat>): (drawn: seq<nat>)
    requires IsPermutation(order, pool)
    ensures |drawn| == Min(batchSize, pool)
    ensures Distinct(drawn) && Below(drawn, pool)
  {
    order[..Min(batchSize, pool)]
  }

  /** When the pool is no larger than the batch, the draw is the whole pool:
      no padding and no repeats. */
  lemma SmallPoolDrawsAll(pool: nat, batchSize: nat, order: seq<nat>)
    requires IsPermutation(order, pool) && pool <= batchSize
    ensures Elements(DrawIndices(pool, batchSize, order)) == Range(pool)
  {
    CoversRange(DrawIndices(pool, batchSize, order), pool);
  }

  /** Every indexed pair names a recorded step. */
  predicate StepsExist<R, H>(b: ReplayBuffer<R, H>) {
    forall i :: 0 <= i < |b.stepLookup| ==> Names(b.trajectories, b.stepLookup[i])
  }

  lemma CompleteStepsExist<R, H>(b: ReplayBuffer<R, H>)
    requires Complete(b)
    ensures StepsExist(b)
  {
    StepIndex.EnumerateNamesSteps(Lengths(b.trajectories));
    forall i | 0 <= i < |b.stepLookup|
      ensures Names(b.trajectories, b.stepLookup[i])
    {
      assert b.stepLookup[i] in StepIndex.Enumerate(Lengths(b.trajectories));
    }
  }

  /** A sampled step with the index `__getitem__` returns beside it. */
  datatype StepSample<R, H> = StepSample(step: Step<R, H>, index: nat)

  /** `ReplayBuffer.sample(batch_size)` before collation. */
  function Sample<R, H>(b: ReplayBuffer<R, H>, batchSize: nat, order: seq<nat>): (batch: seq<StepSample<R, H>>)
    requires StepsExist(b) && IsPermutation(order, |b.stepLookup|)
    ensures |batch| == Min(batchSize, |b.stepLookup|)
    ensures forall i, j :: 0 <= i < j < |batch| ==> batch[i].index != batch[j].index
    ensures forall i :: 0 <= i < |batch| ==>
              batch[i].index < |b.stepLookup|
              && var e := b.stepLookup[batch[i].index]; batch[i].step == b.trajectories[e.trajectory].steps[e.step]
  {
    var drawn := DrawIndices(|b.stepLookup|, batchSize, order);
    seq(|drawn|, i requires 0 <= i < |drawn| =>
      var e := b.stepLookup[drawn[i]];
      StepSample(b.trajectories[e.trajectory].steps[e.step], drawn[i]))
  }

  /** Every sequence-indexed pair names a full window. */
  predicate WindowsExist<R, H>(sb: SequenceReplayBuffer<R, H>) {
    forall i :: 0 <= i < |sb.sequenceLookup| ==> WindowFits(sb.buffer.trajectories, sb.sequenceLookup[i], sb.sequenceLength)
  }

  /** A buffer grown by appends has a full window behind every sequence pair. */
  lemma ConsistentWindowsExist<R, H>(sb: SequenceReplayBuffer<R, H>)
    requires Complete(sb.buffer) && SequenceConsistent(sb)
    ensures WindowsExist(sb)
  {
    CompleteStepsExist(sb.buffer);
    FilterMembership(sb.buffer.stepLookup, SequenceIndex.ReplaySequenceEnd(sb.sequenceLength));
    forall i | 0 <= i < |sb.sequenceLookup|
      ensures WindowFits(sb.buffer.trajectories, sb.sequenceLookup[i], sb.sequenceLength)
    {
      assert sb.sequenceLookup[i] in sb.buffer.stepLookup;
    }
  }

  datatype SequenceSample<R, H> = SequenceSample(window: seq<Step<R, H>>, index: nat)

  /** `SequenceReplayBuffer.sample(batch_size)` before collation. */
  function SampleSequences<R, H>(sb: SequenceReplayBuffer<R, H>, batchSize: nat, order: seq<nat>): (batch: seq<SequenceSample<R, H>>)
    requires WindowsExist(sb) && IsPermutation(order, |sb.sequenceLookup|)
    ensures |batch| == Min(batchSize, |sb.sequenceLookup|)
    ensures forall i, j :: 0 <= i < j < |batch| ==> batch[i].index != batch[j].index
    ensures forall i :: 0 <= i < |batch| ==>
              batch[i].index < |sb.sequenceLookup|
              && batch[i].window == Window(sb.buffer.trajectories, sb.sequenceLookup[batch[i].index], sb.sequenceLength)
  {
    var drawn := DrawIndices(|sb.sequenceLookup|, batchSize, order);
    seq(|drawn|, i requires 0 <= i < |drawn| =>
      SequenceSample(Window(sb.buffer.trajectories, sb.sequenceLookup[drawn[i]], sb.sequenceLength), drawn[i]))
  }

  /** `SequenceReplayBuffer.update_hidden`: the same write-back as the expert
      dataset, through this buffer's sequence index; neither index changes. */
  function UpdateHidden<R, H>(sb: SequenceReplayBuffer<R, H>, indices: seq<nat>, hidden: seq<H>): (r: SequenceReplayBuffer<R, H>)
    requires Datasets.WritableIndices(sb.buffer.trajectories, sb.sequenceLookup, indices, |hidden|)
    ensures r.sequenceLength == sb.sequenceLength && r.sequenceLookup == sb.sequenceLookup
    ensures r.buffer.stepLookup == sb.buffer.stepLookup
    ensures Lengths(r.buffer.trajectories) == Lengths(sb.buffer.trajectories)
    ensures forall t, s :: 0 <= t < |r.buffer.trajectories| && 0 <= s < |r.buffer.trajectories[t].steps| ==>
              r.buffer.trajectories[t].steps[s]
              == Overwrite(sb.buffer.trajectories[t].steps[s],
                           LastWritten(Datasets.Writes(sb.sequenceLookup, indices, hidden), Entry(t, s)))
  {
    var ws := Datasets.Writes(sb.sequenceLookup, indices, hidden);
    var trajectories := ApplyWrites(sb.buffer.trajectories, ws);
    sb.(buffer := sb.buffer.(trajectories := trajectories))
  }
}

=== FILE: sequence_index.dfy ===
/** The sequence index: the pairs of the flat step index at which a sequence
window may end.

Two boundary rules exist and are kept apart, as in core/datasets.py:
the expert dataset keeps a step when `step_idx > sequence_length + 1`, the
sequence replay buffer appends one when the current trajectory has more than
`sequence_length + 1` steps, that is when `step_idx > sequence_length`.
 */
module SequenceIndex {
  import opened Lookups
  import opened Trajectories
  import StepIndex

  /** The expert dataset's rule (`_identify_sequences`). */
  function DatasetSequenceEnd(sequenceLength: nat): Entry -> bool {
    (e: Entry) => e.step > sequenceLength + 1
  }

  /** The replay buffer's rule, restated on the step index it appends. */
  function ReplaySequenceEnd(sequenceLength: nat): Entry -> bool {
    (e: Entry) => e.step > sequenceLength
  }

  /** `TrajectorySequenceDataset._identify_sequences`. */
  method IdentifySequences(stepLookup: seq<Entry>, sequenceLength: nat) returns (sequences: seq<Entry>)
    ensures sequences == Filter(stepLookup, DatasetSequenceEnd(sequenceLength))
    ensures forall e :: e in sequences <==> e in stepLookup && e.step > sequenceLength + 1
  {
    sequences := [];
    var i := 0;
    while i < |stepLookup|
      invariant 0 <= i <= |stepLookup|
      invariant sequences == Filter(stepLookup[..i], DatasetSequenceEnd(sequenceLength))
    {
      var e := stepLookup[i];
      assert stepLookup[..i + 1] == stepLookup[..i] + [e];
      FilterSnoc(stepLookup[..i], e, DatasetSequenceEnd(sequenceLength));
      if e.step > sequenceLength + 1 {
        sequences := sequences + [e];
      }
      i := i + 1;
    }
    assert stepLookup[..i] == stepLookup;
    FilterMembership(stepLookup, DatasetSequenceEnd(sequenceLength));
  }

  /** Every pair the dataset rule keeps from a complete step index names a
      full window of `sequence_length` steps, so `get_sequence` never reaches
      before the start of its trajectory. */
  lemma DatasetWindowsFit<R, H>(trajectories: seq<Trajectory<R, H>>, sequenceLength: nat)
    ensures forall e :: e in Filter(StepIndex.Enumerate(Lengths(trajectories)), DatasetSequenceEnd(sequenceLength)) ==>
              WindowFits(trajectories, e, sequenceLength)
  {
    StepIndex.EnumerateNamesSteps(Lengths(trajectories));
    FilterMembership(StepIndex.Enumerate(Lengths(trajectories)), DatasetSequenceEnd(sequenceLength));
  }

  /** The two rules differ by exactly the pairs at step `sequence_length + 1`:
      the replay index holds them, the dataset index does not. */
  lemma {:induction false} ReplayKeepsOneMoreStep(stepLookup: seq<Entry>, sequenceLength: nat)
    ensures forall e :: e in Filter(stepLookup, DatasetSequenceEnd(sequenceLength)) ==>
              e in Filter(stepLookup, ReplaySequenceEnd(sequenceLength))
    ensures forall e :: (e in Filter(stepLookup, ReplaySequenceEnd(sequenceLength))
                         && e !in Filter(stepLookup, DatasetSequenceEnd(sequenceLength)))
                        <==> (e in stepLookup && e.step == sequenceLength + 1)
  {
    FilterMembership(stepLookup, DatasetSequenceEnd(sequenceLength));
    FilterMembership(stepLookup, ReplaySequenceEnd(sequenceLength));
  }
}

=== FILE: step_index.dfy ===
/** The flat step index: one `(trajectory_idx, step_idx)` pair per recorded step,
trajectory after trajectory, steps in order. Its positions are the master step
indices every sampler hands out.

`Enumerate` is the reference definition; the expert loader of
helpers/datasets.py and the replay buffers' `increment_step` are proved to
produce it.
 */
module StepIndex {
  import opened Lookups

  /** The pairs `(t, 0), (t, 1), ..., (t, n-1)` of one trajectory of `n` steps. */
  function Run(t: nat, n: nat): (r: seq<Entry>)
    ensures |r| == n
    ensures forall i :: 0 <= i < n ==> r[i] == Entry(t, i)
  {
    seq(n, i requires 0 <= i < n => Entry(t, i))
  }

  /** Reference flat index of trajectories with the given step counts. */
  function Enumerate(counts: seq<nat>): seq<Entry>
    decreases |counts|
  {
    if |counts| == 0 then []
    else Enumerate(counts[..|counts| - 1]) + Run(|counts| - 1, counts[|counts| - 1])
  }

  function Sum(counts: seq<nat>): nat
    decreases |counts|
  {
    if |counts| == 0 then 0 else Sum(counts[..|counts| - 1]) + counts[|counts| - 1]
  }

  /** The index has one pair per step: its length is the total step count. */
  lemma {:induction false} EnumerateLength(counts: seq<nat>)
    ensures |Enumerate(counts)| == Sum(counts)
    decreases |counts|
  {
    if |counts| > 0 {
      EnumerateLength(counts[..|counts| - 1]);
    }
  }

  /** Every pair of the index names an existing step. */
  lemma {:induction false} EnumerateNamesSteps(counts: seq<nat>)
    ensures forall e :: e in Enumerate(counts) ==>
              e.trajectory < |counts| && 0 <= e.step < counts[e.trajectory]
    decreases |counts|
  {
    if |counts| > 0 {
      var init := counts[..|counts| - 1];
      EnumerateNamesSteps(init);
      forall e | e in Enumerate(counts)
        ensures e.trajectory < |counts| && 0 <= e.step < counts[e.trajectory]
      {
        if e !in Enumerate(init) {
          assert e in Run(|counts| - 1, counts[|counts| - 1]);
        }
      }
    }
  }

  /** Recording one more step in the last trajectory appends exactly the pair
      naming that step. */
  lemma {:induction false} EnumerateGrowLast(counts: seq<nat>)
    requires |counts| > 0
    ensures var n := |counts| - 1;
            Enumerate(counts[n := counts[n] + 1]) == Enumerate(counts) + [Entry(n, counts[n])]
  {
  }

  /** Starting a new, still empty trajectory leaves the index as it was. */
  lemma {:induction false} EnumerateNewTrajectory(counts: seq<nat>)
    ensures Enumerate(counts + [0]) == Enumerate(counts)
  {
  }

  /** One directory listing entry under the environment's data path, reduced
      to what indexing needs: a trajectory directory and its number of steps,
      or anything else. */
  datatype PathEntry = TrajectoryDir(steps: nat) | OtherFile

  /** What one listing entry contributes to the step counts. */
  function EntryCount(p: PathEntry): seq<nat> {
    match p
    case TrajectoryDir(n) => [n]
    case OtherFile => []
  }

  /** Step counts of the trajectory directories, in listing order. */
  function DirectoryCounts(paths: seq<PathEntry>): seq<nat>
    decreases |paths|
  {
    if |paths| == 0 then []
    else DirectoryCounts(paths[..|paths| - 1]) + EntryCount(paths[|paths| - 1])
  }

  lemma {:induction false} DirectoryCountsAppend(a: seq<PathEntry>, b: seq<PathEntry>)
    ensures DirectoryCounts(a + b) == DirectoryCounts(a) + DirectoryCounts(b)
    decreases |b|
  {
    if |b| == 0 {
      assert a + b == a;
    } else {
      var b' := b[..|b| - 1];
      assert (a + b)[..|a + b| - 1] == a + b';
      assert (a + b)[|a + b| - 1] == b[|b| - 1];
      DirectoryCountsAppend(a, b');
    }
  }

  /** The inner loop of `_load_data`: one pair per step of trajectory `t`. */
  method AppendRun(stepLookup: seq<Entry>, t: nat, n: nat) returns (r: seq<Entry>)
    ensures r == stepLookup + Run(t, n)
  {
    r := stepLookup;
    var stepIdx := 0;
    while stepIdx < n
      invariant 0 <= stepIdx <= n
      invariant r == stepLookup + Run(t, stepIdx)
    {
      assert Run(t, stepIdx + 1) == Run(t, stepIdx) + [Entry(t, stepIdx)];
      r := r + [Entry(t, stepIdx)];
      stepIdx := stepIdx + 1;
    }
  }

  lemma EnumerateSnoc(counts: seq<nat>, n: nat)
    ensures Enumerate(counts + [n]) == Enumerate(counts) + Run(|counts|, n)
  {
  }

  lemma DirectoryCountsStep(paths: seq<PathEntry>, i: nat)
    requires i < |paths|
    ensures DirectoryCounts(paths[..i + 1]) == DirectoryCounts(paths[..i]) + EntryCount(paths[i])
  {
    assert paths[..i + 1][..i] == paths[..i];
  }

  /** Once the listing prefix holds two trajectories, they are the first two
      of the whole listing. */
  lemma {:induction false} DebugStop(paths: seq<PathEntry>, i: nat)
    requires i <= |paths| && |DirectoryCounts(paths[..i])| == 2
    ensures DirectoryCounts(paths[..i]) == DirectoryCounts(paths)[..Min(2, |DirectoryCounts(paths)|)]
  {
    DirectoryCountsAppend(paths[..i], paths[i..]);
    assert paths[..i] + paths[i..] == paths;
  }

  /** `TrajectoryStepDataset._load_data`: walk the listing, skip entries that
      are not directories, record every step of every trajectory, and in debug
      mode stop once two trajectories are loaded. */
  method LoadData(paths: seq<PathEntry>, debugDataset: bool) returns (counts: seq<nat>, stepLookup: seq<Entry>)
    ensures stepLookup == Enumerate(counts)
    ensures |stepLookup| == Sum(counts)
    ensures !debugDataset ==> counts == DirectoryCounts(paths)
    ensures debugDataset ==> counts == DirectoryCounts(paths)[..Min(2, |DirectoryCounts(paths)|)]
  {
    counts := [];
    stepLookup := [];
    var trajectoryIdx := 0;
    var i := 0;
    while i < |paths|
      invariant 0 <= i <= |paths|
      invariant trajectoryIdx == |counts|
      invariant counts == DirectoryCounts(paths[..i])
      invariant stepLookup == Enumerate(counts)
      invariant debugDataset ==> |counts| < 2
    {
      DirectoryCountsStep(paths, i);
      if paths[i].OtherFile? {
        i := i + 1;
        continue;
      }
      var n := paths[i].steps;
      stepLookup := AppendRun(stepLookup, trajectoryIdx, n);
      EnumerateSnoc(counts, n);
      counts := counts + [n];
      trajectoryIdx := trajectoryIdx + 1;
      i := i + 1;
      if debugDataset && trajectoryIdx >= 2 {
        DebugStop(paths, i);
        break;
      }
    }
    if !debugDataset || |counts| < 2 {
      assert paths[..i] == paths;
    }
    EnumerateLength(counts);
  }
}

=== FILE: trajectories.dfy ===
/** Trajectories as the indexing core sees them: an append-only list of steps,
each with an optional cached recurrent hidden state.

The `Trajectory` class itself (core/trajectories.py) is not part of this model.
Its step record (observation, action, reward) is the type parameter `R`, its hidden
state the type parameter `H`; `len(trajectory)` is taken to be its number of steps,
and `get_sequence(end, length)` the `length` steps ending at `end`.
 */
module Trajectories {
  import opened Outcomes
  import opened Lookups

  datatype Step<R, H> = Step(record: R, hidden: Option<H>)

  datatype Trajectory<R, H> = Trajectory(steps: seq<Step<R, H>>, done: bool)

  /** What `Trajectory()` starts as. */
  function EmptyTrajectory<R, H>(): Trajectory<R, H> {
    Trajectory([], false)
  }

  /** `len(trajectories[t])` for every trajectory. */
  function Lengths<R, H>(trajectories: seq<Trajectory<R, H>>): (ls: seq<nat>)
    ensures |ls| == |trajectories|
    ensures forall t :: 0 <= t < |ls| ==> ls[t] == |trajectories[t].steps|
  {
    seq(|trajectories|, t requires 0 <= t < |trajectories| => |trajectories[t].steps|)
  }

  /** Every pair of `lookup` names a trajectory of the list. */
  predicate Covered(lookup: seq<Entry>, count: nat) {
    forall i :: 0 <= i < |lookup| ==> lookup[i].trajectory < count
  }

  /** `e` names a recorded step. */
  predicate Names<R, H>(trajectories: seq<Trajectory<R, H>>, e: Entry) {
    e.trajectory < |trajectories| && 0 <= e.step < |trajectories[e.trajectory].steps|
  }

  /** A window of `length` steps ending at `e` lies inside its trajectory. */
  predicate WindowFits<R, H>(trajectories: seq<Trajectory<R, H>>, e: Entry, length: nat) {
    Names(trajectories, e) && e.step - length + 1 >= 0
  }

  /** `get_sequence(e.step, length)` on trajectory `e.trajectory`. */
  function Window<R, H>(trajectories: seq<Trajectory<R, H>>, e: Entry, length: nat): (w: seq<Step<R, H>>)
    requires WindowFits(trajectories, e, length)
    ensures |w| == length
    ensures length > 0 ==> w[length - 1] == trajectories[e.trajectory].steps[e.step]
  {
    trajectories[e.trajectory].steps[e.step - length + 1 .. e.step + 1]
  }

  /** One hidden-state write: `update_hidden(step_idx, hidden)` on the
      trajectory the target names. */
  datatype Write<H> = Write(target: Entry, hidden: H)

  /** The value the last write aimed at `e` leaves there, if any write is. */
  function LastWritten<H>(writes: seq<Write<H>>, e: Entry): (r: Option<H>)
    ensures r.None? <==> forall k :: 0 <= k < |writes| ==> writes[k].target != e
    ensures r.Some? ==> exists k :: 0 <= k < |writes| && writes[k] == Write(e, r.value)
                                    && forall k' :: k < k' < |writes| ==> writes[k'].target != e
    decreases |writes|
  {
    if |writes| == 0 then None
    else if writes[|writes| - 1].target == e then Some(writes[|writes| - 1].hidden)
    else LastWritten(writes[..|writes| - 1], e)
  }

  function Overwrite<R, H>(step: Step<R, H>, written: Option<H>): Step<R, H> {
    match written
    case None => step
    case Some(h) => step.(hidden := Some(h))
  }

  function SetHidden<R, H>(trajectories: seq<Trajectory<R, H>>, w: Write<H>): seq<Trajectory<R, H>>
    requires Names(trajectories, w.target)
  {
    var t := w.target.trajectory;
    var s := w.target.step;
    var tr := trajectories[t];
    trajectories[t := tr.(steps := tr.steps[s := tr.steps[s].(hidden := Some(w.hidden))])]
  }

  /** The writes applied one after another, as the `update_hidden` loops do.
      Afterwards every step holds the value of the last write aimed at it, and
      every step no write aims at is exactly as it was. */
  function ApplyWrites<R, H>(trajectories: seq<Trajectory<R, H>>, writes: seq<Write<H>>): (r: seq<Trajectory<R, H>>)
    requires forall k :: 0 <= k < |writes| ==> Names(trajectories, writes[k].target)
    ensures |r| == |trajectories|
    ensures forall t :: 0 <= t < |r| ==> |r[t].steps| == |trajectories[t].steps| && r[t].done == trajectories[t].done
    ensures forall t, s :: 0 <= t < |r| && 0 <= s < |r[t].steps| ==>
              r[t].steps[s] == Overwrite(trajectories[t].steps[s], LastWritten(writes, Entry(t, s)))
    decreases |writes|
  {
    if |writes| == 0 then trajectories
    else
      var w := writes[|writes| - 1];
      assert Names(trajectories, w.target);
      var before := ApplyWrites(trajectories, writes[..|writes| - 1]);
      assert |before[w.target.trajectory].steps| == |trajectories[w.target.trajectory].steps|;
      SetHidden(before, w)
  }
}
